=== FILE: README.md ===
# SAI Thrift attribute codec

This project models the attribute conversion at the heart of the SAI Thrift
RPC server (`meta/sai_rpc_frontend.cpp`). A client sends a
`sai_thrift_attribute_t`: an attribute id plus a Thrift value record with
one field per value type, in which lists are counted vectors and MAC and IP
addresses are text. The server turns it into a `sai_attribute_t`, whose value
is a C union with exactly one active member and whose lists are
`malloc`'d buffers (`convert_attr_thrift_to_sai`). After the SAI call it
turns the attribute back into Thrift, copying each list out of its buffer
and `free`ing it (`convert_attr_sai_to_thrift`). Both conversions look up
the attribute's value type in the SAI metadata for (object type,
attribute id). An unknown attribute throws `INVALID_PARAMETER`. A value type
without a branch throws `NOT_SUPPORTED`.

The modules:

- `Ints`: fixed-width integers, `htonl` and the 32-bit reinterpretation of
  an unsigned count as a signed field.
- `MacCodec`: the lenient MAC scanner (every hex digit is packed, everything
  else is skipped, valid exactly when there are twelve digits) and the
  `%02x:` formatter.
- `Ipv4Codec`: the lenient dotted-decimal accumulator followed by `htonl`,
  and `inet_ntop(AF_INET)`.
- `IpCodec`: the address and prefix parsers and formatters, which dispatch
  on the family. The C library's IPv6 `inet_pton`/`inet_ntop` are
  parameters.
- `CharData`: the 32-byte `chardata` array, filled by a 32-byte `memcpy`
  from a string and read back as a NUL-terminated string. Each character of
  the model stands for one byte.
- `AttrTypes`: the Thrift and SAI value types and the heap of list buffers.
  `malloc` hands out fresh buffer ids; `free` removes them from the live
  set.
- `Codec`: the two conversions, with their `Converted` result (the output
  attribute, the heap, and whether the call returned or threw).
- `CodecProperties` and `ListProperties`: round trips in both directions,
  frame properties, heap balance, and the asymmetries the two switches
  have.
- `NatType`: `sai_thrift_nat_type_t_parse`.

## Model

| member | source | states |
|---|---|---|
| Ints.HtonlSwapsBytes | meta/sai_rpc_frontend.cpp:95 | the accumulator's four bytes come out in reverse order (network order on a little-endian host) |
| Ints.HtonlInvolution | meta/sai_rpc_frontend.cpp:95 | applying htonl twice gives the value back |
| Ints.AsInt32 | meta/sai_rpc_frontend.cpp:835-846 | a 32-bit count read through a signed 32-bit family field keeps its value below 2^31 and goes negative from there |
| MacCodec.Parse | meta/sai_rpc_frontend.cpp:41-67 | the parse is valid exactly when the text has twelve hex digits, and the six bytes are the reference packing of the text's hex digits with all other characters dropped |
| MacCodec.ScanPacks | meta/sai_rpc_frontend.cpp:46-65 | the scanning loop, run from any state that packs a digit prefix, ends in the state that packs that prefix followed by the text's digits |
| MacCodec.StepPacks | meta/sai_rpc_frontend.cpp:48-64 | one loop iteration appends a hex digit's value to the packed digits and leaves the state alone for any other character |
| MacCodec.Format | meta/sai_rpc_frontend.cpp:677-691 | the text is 17 characters: colons exactly at every third position, lowercase hex digits everywhere else |
| MacCodec.FormatThenParse | meta/sai_rpc_frontend.cpp:41-67 | parsing the formatter's text succeeds and gives back the six bytes |
| MacCodec.ParseIgnoresCase | meta/sai_rpc_frontend.cpp:55-64 | upper- and lower-case hex digits parse alike, for every text |
| Ipv4Codec.AccumulateDotted | meta/sai_rpc_frontend.cpp:73-94 | the accumulator of a dotted quad holds its four octets, the first one most significant |
| Ipv4Codec.ParseInNetworkOrder | meta/sai_rpc_frontend.cpp:73-95 | the parse is the accumulator in network byte order: htonl on the parse gives the accumulator back |
| Ipv4Codec.FormatThenParse | meta/sai_rpc_frontend.cpp:73-95 | parsing the dotted text that inet_ntop writes (sai_ip4_t_to_thrift, lines 569-574) gives back the stored address |
| Ipv4Codec.DecimalDigits | meta/sai_rpc_frontend.cpp:569-574 | inet_ntop writes each octet as one to three digits without a leading zero, a single digit exactly below 10 |
| Ipv4Codec.FormatShape | meta/sai_rpc_frontend.cpp:569-574 | the text inet_ntop writes for any address is 7 to 15 characters long, digits and dots only, with exactly three dots |
| Ipv4Codec.ScanDigits | meta/sai_rpc_frontend.cpp:79-86 | a run of digits extends the current octet by the run's decimal value (each digit weighted by its place, independently of the loop) modulo 256, the unsigned char cast at line 85 |
| Ipv4Codec.AccumulateRuns | meta/sai_rpc_frontend.cpp:73-94 | any four runs of digits, separated by any three non-digit characters (not only dots, as the else branch at 87-91 shifts on every non-digit), accumulate to their decimal values, each modulo 256, the first most significant |
| Ipv4Codec.OnlyLastFourRuns | meta/sai_rpc_frontend.cpp:79-94 | whatever text precedes the last four runs of digits and the non-digit before them is shifted out of the accumulator, whichever non-digits separate the runs |
| Ipv4Codec.DecimalValue | meta/sai_rpc_frontend.cpp:569-574 | the digits inet_ntop writes for an octet denote that octet |
| Ipv4Codec.WrapExample | meta/sai_rpc_frontend.cpp:79-94 | "1.2.3.300" accumulates as "1.2.3.44" would: the last octet wraps modulo 256 |
| Ipv4Codec.OnlyLastFourOctets | meta/sai_rpc_frontend.cpp:79-94 | whatever text precedes the last four dot-separated octets, and any non-digit before them, is shifted out of the 32-bit accumulator |
| Ipv4Codec.ParseExample | meta/sai_rpc_frontend.cpp:73-95 | "192.168.1.1" accumulates to 0xC0A80101, and formatting its parse gives the same text back |
| IpCodec.ParseAddress | meta/sai_rpc_frontend.cpp:111-125 | the family is copied; the IPv4 text is parsed when the family is IPV4, and the IPv6 text by inet_pton for any other family |
| IpCodec.ParsePrefix | meta/sai_rpc_frontend.cpp:130-146 | the family is copied; for IPV4 the address and the mask are parsed from the wire address's and the wire mask's IPv4 texts, and for any other family from their IPv6 texts by inet_pton |
| IpCodec.AddressToWire | meta/sai_rpc_frontend.cpp:589-601 | a family other than IPV4 or IPV6 leaves the output untouched; otherwise the family is written, the address's text goes into its family's member, and the other family's text is left alone |
| IpCodec.PrefixToWire | meta/sai_rpc_frontend.cpp:606-620 | a family other than IPV4 or IPV6 leaves the output untouched; otherwise the family is written, the address's text goes into the wire address and the mask's into the wire mask, each in its family's member, and the other family's texts are left alone |
| IpCodec.IpRoundTrip | meta/sai_rpc_frontend.cpp:111-125 | an IPv4 address, or an IPv6 one when inet_pton inverts inet_ntop, is parsed back from the text written for its family |
| IpCodec.AddressRoundTrip | meta/sai_rpc_frontend.cpp:589-601 | an address of family IPV4 (or IPV6, given the inverse) survives format then parse |
| IpCodec.PrefixRoundTrip | meta/sai_rpc_frontend.cpp:606-620 | a prefix of family IPV4 (or IPV6, given the inverse) survives format then parse: family, address and mask |
| CharData.FromText | meta/sai_rpc_frontend.cpp:198-201 | the first 32 characters of the string are copied, and a shorter string is followed by its NUL |
| CharData.ToText | meta/sai_rpc_frontend.cpp:650-652 | the string is the array's prefix up to the first NUL (or all 32 bytes), and holds no NUL |
| CharData.ShortTextRoundTrip | meta/sai_rpc_frontend.cpp:198-201 | a NUL-free string shorter than 32 characters comes back unchanged |
| CharData.LongTextTruncated | meta/sai_rpc_frontend.cpp:198-201 | a NUL-free string of 32 characters or more fills the whole array and leaves no terminating NUL; the model reads it back as its first 32 characters |
| CharData.PaddedRoundTrip | meta/sai_rpc_frontend.cpp:650-652 | an array that is NUL from its first NUL on survives being read out and copied back in |
| AttrTypes.Release | meta/sai_rpc_frontend.cpp:714 | freeing a set of buffers removes exactly those from the live set and keeps the heap valid |
| AttrTypes.Grow | meta/sai_rpc_frontend.cpp:246 | n mallocs keep every live buffer and make the n fresh ids live; on a valid heap those ids were not live before, and the heap stays valid |
| AttrTypes.FreshSize | meta/sai_rpc_frontend.cpp:408-415 | n consecutive mallocs hand out n distinct buffers |
| AttrTypes.GrowCount | meta/sai_rpc_frontend.cpp:246 | on a valid heap, n mallocs add exactly n live buffers |
| AttrTypes.GrowThenRelease | meta/sai_rpc_frontend.cpp:714 | freeing the buffers just allocated restores the live set |
| Codec.DecodeScalar | meta/sai_rpc_frontend.cpp:195-243 | every scalar value type decodes; an unlisted type fails with NOT_SUPPORTED |
| Codec.DecodeScalarFits | meta/sai_rpc_frontend.cpp:195-327 | a decoded scalar sets the union member its type selects, owns no buffer and can be read by the encoder; a boolean, integer, object id or range holds the wire value, a range's minimum and maximum each in its place |
| Codec.EncodeScalar | meta/sai_rpc_frontend.cpp:647-783 | a boolean, integer, object id or range is written to the wire as it is, a range's minimum and maximum each in its place |
| Codec.DecodeIntListFits | meta/sai_rpc_frontend.cpp:244-320 | a decoded integer or object-id list sets the type's member, owns exactly the buffer allocated for it, carries the wire count, holds the wire elements in their wire order, and is sized by its count when the wire count matches the items |
| Codec.DecodeRecordListFits | meta/sai_rpc_frontend.cpp:484-559 | the same for the range, capability, resource, address, prefix and QoS-map lists: the wire count, and the range, capability action, resource and QoS-map elements in wire order, with the capability's `is_action_list_mandatory` flag copied (line 486); an address or prefix list has one element per wire element, and each address, and each prefix's address and mask, holds the variant its family selects |
| Codec.DecodeAclDataFits | meta/sai_rpc_frontend.cpp:339-422 | an ACL data, mask or parameter member decodes to its primitive's type and owns a buffer exactly when the primitive is a list |
| Codec.DecodeAclFieldFits | meta/sai_rpc_frontend.cpp:339-422 | an ACL field owns no buffer, or one for an object list, or two (data, then mask) for a u8 list |
| Codec.DecodeAclActionFits | meta/sai_rpc_frontend.cpp:423-482 | an ACL action owns one buffer for an object-list parameter and none otherwise |
| Codec.DecodeValue | meta/sai_rpc_frontend.cpp:193-562 | the switch fails, with NOT_SUPPORTED, exactly for the types without a branch (including the ACL field on an IP address and the ACL action on a u8 list); otherwise it performs exactly the mallocs the type needs |
| Codec.DecodeValueFits | meta/sai_rpc_frontend.cpp:193-562 | the decoded value has the type's member set, owns exactly the freshly allocated buffers, and can be read by the encoder when the list counts agree |
| Codec.Decode | meta/sai_rpc_frontend.cpp:173-564 | the id is always written; INVALID_PARAMETER is thrown exactly when the metadata lacks the attribute, and NOT_SUPPORTED exactly when the type has no branch; a throw leaves the rest of the output and the heap unchanged |
| Codec.DecodeFits | meta/sai_rpc_frontend.cpp:173-564 | a returned attribute owns exactly the buffers the decoder allocated, and the encoder can read it |
| Codec.AddressesToWire | meta/sai_rpc_frontend.cpp:823-834 | one wire address per address, in order: each one of family IPV4 (or IPV6, given the inverse) parses back to the address, and one of neither family stays default-constructed |
| Codec.MisreadPrefix | meta/sai_rpc_frontend.cpp:835-846 | the prefix the loop reads has the list's count as its family, which is never IPV4 for a non-empty list |
| Codec.MisreadPrefixes | meta/sai_rpc_frontend.cpp:835-846 | the loop appends one wire prefix per counted element |
| Codec.EncodeValue | meta/sai_rpc_frontend.cpp:645-878 | the switch fails, with NOT_SUPPORTED, exactly for the types without a branch (every ACL field and action among them); otherwise it frees exactly the buffers the value owns, and a list's wire count becomes the native count while its native elements are pushed, in order, after the items the wire list already held (one wire address or prefix per element) |
| Codec.AppendList | meta/sai_rpc_frontend.cpp:709-713 | the `push_back` loop: the items the wire list held stay in front, the `count` native elements follow them in order, and the count is the native count |
| Codec.Encode | meta/sai_rpc_frontend.cpp:625-880 | the id is always written; INVALID_PARAMETER is thrown exactly when the metadata lacks the attribute, and NOT_SUPPORTED exactly when the type has no branch; a return frees exactly the value's live buffers |
| CodecProperties.EncodeWritesOnlyMember | meta/sai_rpc_frontend.cpp:645-878 | the encoder writes the member its type selects and no other field of the Thrift value |
| CodecProperties.DecodeReadsOnlyMember | meta/sai_rpc_frontend.cpp:193-562 | the decoder reads only the member its type selects: changing every other field of the Thrift value changes nothing |
| CodecProperties.ScalarWireRoundTrip | meta/sai_rpc_frontend.cpp:195-243 | a scalar copied verbatim, or a short NUL-free chardata, decodes and re-encodes to the same Thrift member |
| CodecProperties.IntListWireRoundTrip | meta/sai_rpc_frontend.cpp:707-776 | an integer list whose count matches its items decodes and re-encodes into a blank output as the same count and items |
| CodecProperties.RecordListWireRoundTrip | meta/sai_rpc_frontend.cpp:785-875 | the same for the u16 range, resource, QoS-map and capability lists (the capability with its mandatory flag clear) |
| CodecProperties.WireRoundTrip | meta/sai_rpc_frontend.cpp:173-880 | Thrift to SAI to Thrift gives back the id and the type's member for every value that survives, and the live buffers end as they began |
| CodecProperties.CapabilityFlagNotWritten | meta/sai_rpc_frontend.cpp:799-808 | the capability's is_action_list_mandatory flag is never written: the output keeps whatever it held |
| CodecProperties.ScalarNativeRoundTrip | meta/sai_rpc_frontend.cpp:647-706 | every scalar SAI value survives encode then decode: NUL-padded chardata, MAC, IPv4, IPv6 when inet_pton inverts inet_ntop, and addresses and prefixes of family IPV4 or IPV6 |
| CodecProperties.NativeRoundTrip | meta/sai_rpc_frontend.cpp:625-880 | SAI to Thrift to SAI gives back a scalar attribute whatever the outputs held |
| CodecProperties.OwnedByKind | meta/sai_rpc_frontend.cpp:707-878 | a value the encoder reads owns one buffer for a list type and none otherwise |
| CodecProperties.DecodeAllocates | meta/sai_rpc_frontend.cpp:173-564 | a returning decode adds exactly as many live buffers as the type's mallocs; a throw allocates nothing |
| CodecProperties.EncodeFrees | meta/sai_rpc_frontend.cpp:625-880 | a returning encode frees exactly one buffer for a list and none otherwise; a throw frees nothing |
| CodecProperties.DecodeEncodeBalance | meta/sai_rpc_frontend.cpp:173-880 | for a type both switches handle, decode then encode returns and leaves the live buffers as they were: no leak |
| CodecProperties.AclDataAsValue | meta/sai_rpc_frontend.cpp:339-482 | an ACL data, mask or parameter member decodes exactly as a value of its primitive's own type decodes from any wire value carrying the same members |
| CodecProperties.DecodeAclFieldMembers | meta/sai_rpc_frontend.cpp:339-422 | an ACL field copies the enable flag, decodes its data from the wire data member and, for the primitives with a mask, its mask from the wire mask member; a u8 list's data goes into the first buffer and its mask into the second |
| CodecProperties.DecodeAclActionMembers | meta/sai_rpc_frontend.cpp:423-482 | an ACL action copies the enable flag and decodes its parameter from the wire parameter member; an object list's ids go into the buffer allocated for it |
| CodecProperties.AclAsymmetry | meta/sai_rpc_frontend.cpp:339-482 | every ACL field or action the decoder handles fails to encode with NOT_SUPPORTED, and the decoder's buffers stay live |
| ListProperties.IntListNativeRoundTrip | meta/sai_rpc_frontend.cpp:707-776 | an integer list encoded into a blank output and decoded again has the same count and elements, in the decoder's buffer |
| ListProperties.RecordListNativeRoundTrip | meta/sai_rpc_frontend.cpp:785-875 | the same for the u16 range, resource, QoS-map and capability lists (flag clear) |
| ListProperties.AddressListNativeRoundTrip | meta/sai_rpc_frontend.cpp:823-834 | an address list whose every family is IPV4 (or IPV6, given the inverse) survives encode then decode |
| ListProperties.PrefixListIgnoresElements | meta/sai_rpc_frontend.cpp:835-846 | two prefix lists with the same count and buffer encode alike, whatever prefixes they hold |
| ListProperties.PrefixListDefaults | meta/sai_rpc_frontend.cpp:835-846 | from two prefixes on, every element the encoder appends is the default-constructed wire prefix |
| ListProperties.PrefixListNoRoundTrip | meta/sai_rpc_frontend.cpp:835-846 | a list of two IPv4 prefixes whose address and mask differ does not survive encode then decode |
| NatType.NatTypeParse | meta/sai_rpc_frontend.cpp:885-890 | the cast keeps the number, whatever it is, including numbers that name no NAT type |
| NatType.NatTypeRoundTrip | meta/sai_rpc_frontend.cpp:885-890 | the parse is a bijection: casting back gives the Thrift value, and every SAI value is the parse of exactly one Thrift value |

## Left out

- The RPC handler class, the generated handler include, server start and
  stop, and logging: they are outside the attribute codec.
- The SAI metadata registry is a map from (object type, attribute id) to a
  value type rather than the generated tables.
- IPv6 text conversion: `inet_pton`/`inet_ntop` for `AF_INET6` are parameters
  (`IpCodec.Libc`), and the round trips assume that `inet_pton` inverts
  `inet_ntop`. Canonical IPv6 text (section 4 of RFC 5952) is not modelled.
- IpCodec.Libc: `pton6` stands for a successful `inet_pton` only. The C code
  ignores its return value (line 105); on text it rejects, the 16 destination
  bytes keep whatever they held (stack or `malloc`ed memory), so the decoded
  IPv6 value is then not a function of the text. The model makes it one.
- `htonl` is modelled as the byte swap of a little-endian host, and
  `inet_ntop(AF_INET)` prints the four bytes in memory order.
- Thrift integer widths: wire integers have the width of the SAI member they
  feed. Narrowing on assignment is not modelled.
- Codec.Decode: a wire list whose count differs from its number of items
  decodes to a buffer holding the items. In C, more items than the count
  overflow the malloc'd buffer and fewer leave it partly uninitialised.
  Only lists whose counts agree are shown to be readable by the encoder.
- MacCodec.Parse: hex digits past the twelfth are written past the 6-byte
  buffer in C. The model drops those writes; the result is still invalid.
- CharData.FromText: the `memcpy` reads 32 bytes even when the string is
  shorter. The model reads the bytes after the terminating NUL as NUL.
  Each character stands for one byte, so the array holds 32 characters;
  text whose characters take several bytes in UTF-8 is not modelled.
- CharData.LongTextTruncated: in C the unterminated array is read on past
  its end (line 651), so the text is not cut at 32. The model stops at the
  array's end.
- Ipv4Codec.Parse: each character stands for one byte of the Thrift string.
  In C, every byte of a character that takes several bytes is a non-digit
  and shifts the accumulator; the model shifts once per character.
- CharData.ToText: an array without a NUL is read past its end in C. The
  model stops at 32 bytes.
- Codec.MisreadPrefix: the prefix-list encoder reads the single-prefix union
  member. Its family overlays the list's count; the model reads its address
  and mask through a parameter (`Env.overlay`) standing for the memory
  there: the pointer and the bytes after it.
- Memory allocation failure (`malloc` returning NULL) is not modelled.
- NatType.NatTypeParse: the Thrift and SAI enums are plain 32-bit integers;
  the names of the enum members are not modelled.

=== FILE: attr_types.dfy ===
/** The attribute data model: value kinds from the metadata, the wire
    (Thrift) attribute value, the native (SAI) attribute value, and the heap
    of list buffers that crosses between them. */
module AttrTypes {
  import opened Ints
  import opened Wrappers
  import MacCodec
  import IpCodec
  import CharData

  type ObjectType = int
  type AttrId = int
  type Oid = uint64

  /** The primitive a SAI_ATTR_VALUE_TYPE_ACL_FIELD_DATA_* or
      SAI_ATTR_VALUE_TYPE_ACL_ACTION_DATA_* kind is parameterised by. */
  datatype AclPrim =
    | PBool | PUInt8 | PInt8 | PUInt16 | PInt16 | PUInt32 | PInt32
    | PMac | PIpv4 | PIpv6 | PIpAddress | PObjectId | PObjectList | PUInt8List

  /** sai_attr_value_type_t, as the metadata reports it. `Unlisted` stands
      for every value type the dispatchers have no branch for. */
  datatype ValueType =
    | Bool | CharData
    | UInt8 | Int8 | UInt16 | Int16 | UInt32 | Int32 | UInt64 | Int64
    | Mac | Ipv4 | Ipv6 | IpAddress | IpPrefix
    | ObjectId | ObjectList
    | UInt8List | Int8List | UInt16List | Int16List | UInt32List | Int32List
    | UInt32Range | Int32Range | UInt16RangeList
    | AclFieldData(field: AclPrim)
    | AclActionData(action: AclPrim)
    | AclCapability | AclResourceList | IpAddressList | IpPrefixList | QosMapList
    | Unlisted(code: int)

  datatype Range<T> = Range(min: T, max: T)

  /** One entry of an ACL resource list; the enum casts keep the numbers. */
  datatype AclResource = AclResource(stage: int32, bindPoint: int32, availNum: uint32)

  /** The eight fields of a QoS map key or value. */
  datatype QosMapParams = QosMapParams(
    tc: uint8, dscp: uint8, dot1p: uint8, prio: uint8,
    pg: uint8, queueIndex: uint8, color: int32, mplsExp: uint8)

  datatype QosMap = QosMap(key: QosMapParams, value: QosMapParams)

  // ---------------------------------------------------------------- wire side

  /** A wire list: a count beside an insertion-ordered sequence. */
  datatype WireList<T> = WireList(count: uint32, items: seq<T>)

  /** The wire ACL data/mask/parameter record (all members present). */
  datatype WireAclData = WireAclData(
    booldata: bool, u8: uint8, s8: int8, u16: uint16, s16: int16, u32: uint32, s32: int32,
    mac: string, ip4: string, ip6: string, ipaddr: IpCodec.WireIpAddress,
    oid: Oid, objlist: WireList<Oid>, u8list: WireList<uint8>)

  datatype WireAclField = WireAclField(enable: bool, data: WireAclData, mask: WireAclData)

  datatype WireAclAction = WireAclAction(enable: bool, parameter: WireAclData)

  datatype WireAclCapability = WireAclCapability(isActionListMandatory: bool, actionList: WireList<int32>)

  /** sai_thrift_attribute_value_t: a record holding every member at once. */
  datatype WireValue = WireValue(
    booldata: bool, chardata: string,
    u8: uint8, s8: int8, u16: uint16, s16: int16, u32: uint32, s32: int32, u64: uint64, s64: int64,
    mac: string, ip4: string, ip6: string,
    ipaddr: IpCodec.WireIpAddress, ipprefix: IpCodec.WireIpPrefix,
    oid: Oid, objlist: WireList<Oid>,
    u8list: WireList<uint8>, s8list: WireList<int8>, u16list: WireList<uint16>,
    s16list: WireList<int16>, u32list: WireList<uint32>, s32list: WireList<int32>,
    u32range: Range<uint32>, s32range: Range<int32>, u16rangelist: WireList<Range<uint16>>,
    aclfield: WireAclField, aclaction: WireAclAction, aclcapability: WireAclCapability,
    aclresource: WireList<AclResource>, ipaddrlist: WireList<IpCodec.WireIpAddress>,
    ipprefixlist: WireList<IpCodec.WireIpPrefix>, qosmap: WireList<QosMap>)

  datatype WireAttr = WireAttr(id: AttrId, value: WireValue)

  function EmptyList<T>(): WireList<T> {
    WireList(0, [])
  }

  const EMPTY_ACL_DATA: WireAclData := WireAclData(
    false, 0, 0, 0, 0, 0, 0, "", "", "", IpCodec.DEFAULT_ADDRESS, 0, EmptyList(), EmptyList())

  /** A freshly constructed wire value: zeros, empty texts, empty lists. */
  const EMPTY_WIRE: WireValue := WireValue(
    false, "", 0, 0, 0, 0, 0, 0, 0, 0, "", "", "",
    IpCodec.DEFAULT_ADDRESS, IpCodec.DEFAULT_PREFIX,
    0, EmptyList(), EmptyList(), EmptyList(), EmptyList(), EmptyList(), EmptyList(), EmptyList(),
    Range(0, 0), Range(0, 0), EmptyList(),
    WireAclField(false, EMPTY_ACL_DATA, EMPTY_ACL_DATA), WireAclAction(false, EMPTY_ACL_DATA),
    WireAclCapability(false, EmptyList()),
    EmptyList(), EmptyList(), EmptyList(), EmptyList())

  // -------------------------------------------------------------- native side

  /** The identity of a heap buffer (its address). */
  type BufferId = nat

  /** A heap buffer and the elements written into it. */
  datatype Buffer<T> = Buffer(id: BufferId, elems: seq<T>)

  /** A native list: a count and a pointer to an owned buffer. */
  datatype NativeList<T> = NativeList(count: uint32, buf: Buffer<T>)

  /** sai_attribute_value_t: a C union, so exactly one member is held. */
  datatype NativeValue =
    | BoolVal(booldata: bool)
    | CharVal(chardata: CharData.CharBuf)
    | U8Val(u8: uint8) | S8Val(s8: int8) | U16Val(u16: uint16) | S16Val(s16: int16)
    | U32Val(u32: uint32) | S32Val(s32: int32) | U64Val(u64: uint64) | S64Val(s64: int64)
    | MacVal(mac: MacCodec.Mac) | Ip4Val(ip4: uint32) | Ip6Val(ip6: IpCodec.Ip6)
    | IpAddrVal(ipaddr: IpCodec.IpAddress) | IpPrefixVal(ipprefix: IpCodec.IpPrefix)
    | OidVal(oid: Oid) | ObjListVal(objlist: NativeList<Oid>)
    | U8ListVal(u8list: NativeList<uint8>) | S8ListVal(s8list: NativeList<int8>)
    | U16ListVal(u16list: NativeList<uint16>) | S16ListVal(s16list: NativeList<int16>)
    | U32ListVal(u32list: NativeList<uint32>) | S32ListVal(s32list: NativeList<int32>)
    | U32RangeVal(u32range: Range<uint32>) | S32RangeVal(s32range: Range<int32>)
    | U16RangeListVal(u16rangelist: NativeList<Range<uint16>>)
    | AclFieldVal(aclfield: AclField) | AclActionVal(aclaction: AclAction)
    | AclCapabilityVal(isActionListMandatory: bool, actionList: NativeList<int32>)
    | AclResourceListVal(aclresource: NativeList<AclResource>)
    | IpAddrListVal(ipaddrlist: NativeList<IpCodec.IpAddress>)
    | IpPrefixListVal(ipprefixlist: NativeList<IpCodec.IpPrefix>)
    | QosMapListVal(qosmap: NativeList<QosMap>)

  /** sai_acl_field_data_t: the data member and, for kinds that set one, the
      mask member; `None` is a mask the decoder leaves untouched. */
  datatype AclField = AclField(enable: bool, data: NativeValue, mask: Option<NativeValue>)

  datatype AclAction = AclAction(enable: bool, parameter: NativeValue)

  datatype NativeAttr = NativeAttr(id: AttrId, value: NativeValue)

  /** The buffers a native value owns. */
  function Owned(v: NativeValue): set<BufferId> {
    match v
    case ObjListVal(l) => {l.buf.id}
    case U8ListVal(l) => {l.buf.id}
    case S8ListVal(l) => {l.buf.id}
    case U16ListVal(l) => {l.buf.id}
    case S16ListVal(l) => {l.buf.id}
    case U32ListVal(l) => {l.buf.id}
    case S32ListVal(l) => {l.buf.id}
    case U16RangeListVal(l) => {l.buf.id}
    case AclCapabilityVal(_, l) => {l.buf.id}
    case AclResourceListVal(l) => {l.buf.id}
    case IpAddrListVal(l) => {l.buf.id}
    case IpPrefixListVal(l) => {l.buf.id}
    case QosMapListVal(l) => {l.buf.id}
    case AclFieldVal(f) => Owned(f.data) + (if f.mask.Some? then Owned(f.mask.value) else {})
    case AclActionVal(a) => Owned(a.parameter)
    case _ => {}
  }

  // --------------------------------------------------------------------- heap

  /** The live heap buffers; `next` is where malloc hands out the next one. */
  datatype Heap = Heap(live: set<BufferId>, next: BufferId) {
    predicate Valid() {
      forall b :: b in live ==> b < next
    }
  }

  /** free of every buffer in `s`. */
  function Release(h: Heap, s: set<BufferId>): (r: Heap)
    ensures h.Valid() ==> r.Valid()
    ensures r.live !! s && r.live + s == h.live + s
  {
    Heap(h.live - s, h.next)
  }

  /** The n buffers the next n allocations, starting at `from`, hand out. */
  function Fresh(from: BufferId, n: nat): set<BufferId>
    decreases n
  {
    if n == 0 then {} else {from} + Fresh(from + 1, n - 1)
  }

  /** The fresh run is exactly the ids from `from` below `from + n`. */
  lemma {:induction false} FreshMembers(from: BufferId, n: nat)
    ensures forall b :: b in Fresh(from, n) <==> from <= b < from + n
    decreases n
  {
    if n > 0 {
      FreshMembers(from + 1, n - 1);
    }
  }

  /** A fresh run of n ids has n members. */
  lemma {:induction false} FreshSize(from: BufferId, n: nat)
    ensures |Fresh(from, n)| == n
    decreases n
  {
    if n > 0 {
      FreshSize(from + 1, n - 1);
      FreshMembers(from + 1, n - 1);
      assert from !in Fresh(from + 1, n - 1);
    }
  }

  /** The runs of fresh ids the decoder can allocate for one attribute. */
  lemma FreshSmall(from: BufferId)
    ensures Fresh(from, 0) == {}
    ensures Fresh(from, 1) == {from}
    ensures Fresh(from, 2) == {from, from + 1}
  {
    assert Fresh(from + 1, 1) == {from + 1};
  }

  /** n mallocs in a row: the next n ids become live. */
  function Grow(h: Heap, n: nat): (r: Heap)
    ensures h.Valid() ==> r.Valid() && h.live !! Fresh(h.next, n)
    ensures h.live <= r.live && Fresh(h.next, n) <= r.live
  {
    FreshMembers(h.next, n);
    Heap(h.live + Fresh(h.next, n), h.next + n)
  }

  /** On a valid heap, n mallocs add exactly n live buffers. */
  lemma GrowCount(h: Heap, n: nat)
    requires h.Valid()
    ensures |Grow(h, n).live| == |h.live| + n
  {
    FreshSize(h.next, n);
    FreshMembers(h.next, n);
    assert h.live * Fresh(h.next, n) == {} by {
      forall b | b in h.live * Fresh(h.next, n)
        ensures false
      {
      }
    }
  }

  /** On a valid heap, freeing the n buffers just allocated gives back the
      live set from before. */
  lemma GrowThenRelease(h: Heap, n: nat)
    requires h.Valid()
    ensures Release(Grow(h, n), Fresh(h.next, n)).live == h.live
  {
  }
}

=== FILE: chardata.dfy ===
/** The fixed 32-byte chardata member and its conversions to and from text.
    Each character stands for one byte of the C string. */
module CharData {

  const NUL: char := '\0'

  /** The chardata array of sai_attribute_value_t. */
  type CharBuf = s: seq<char> | |s| == 32 witness seq(32, _ => '\0')

  /** memcpy of 32 bytes from the text's c_str(): its characters, the
      terminating NUL, then bytes lying past the text, modelled as NUL. */
  function FromText(s: string): (r: CharBuf)
    ensures forall i :: 0 <= i < |s| && i < 32 ==> r[i] == s[i]
    ensures |s| < 32 ==> r[|s|] == NUL
  {
    seq(32, i requires 0 <= i < 32 => if i < |s| then s[i] else NUL)
  }

  /** Text built from a char array: the characters before the first NUL. */
  function ToText(b: seq<char>): (r: string)
    ensures |r| <= |b| && r == b[..|r|]
    ensures NUL !in r
    ensures |r| < |b| ==> b[|r|] == NUL
  {
    if |b| == 0 || b[0] == NUL then [] else [b[0]] + ToText(b[1..])
  }

  /** A text shorter than the array and free of NUL survives the trip
      through the array unchanged. */
  lemma ShortTextRoundTrip(s: string)
    requires |s| < 32 && NUL !in s
    ensures ToText(FromText(s)) == s
  {
    assert FromText(s)[..|s|] == s;
  }

  /** A longer NUL-free text fills the array and leaves no terminating
      NUL; read back, it is cut to the array's 32 characters. */
  lemma LongTextTruncated(s: string)
    requires |s| >= 32 && NUL !in s
    ensures NUL !in FromText(s)
    ensures ToText(FromText(s)) == s[..32]
  {
    assert FromText(s) == s[..32];
  }

  /** Every byte after the first NUL is NUL as well. */
  predicate Padded(b: CharBuf) {
    forall i, j :: 0 <= i <= j < 32 && b[i] == NUL ==> b[j] == NUL
  }

  /** A NUL-padded array survives the trip through text unchanged. */
  lemma PaddedRoundTrip(b: CharBuf)
    requires Padded(b)
    ensures FromText(ToText(b)) == b
  {
    var t := ToText(b);
    forall i | 0 <= i < 32
      ensures FromText(t)[i] == b[i]
    {
      if i >= |t| {
        assert b[|t|] == NUL;
      }
    }
  }
}

=== FILE: codec.dfy ===
/** The attribute value codec: convert_attr_thrift_to_sai (Decode) and
    convert_attr_sai_to_thrift (Encode), dispatching on the value kind the
    metadata reports for (object type, attribute id). */
module Codec {
  import opened Ints
  import opened Wrappers
  import opened AttrTypes
  import MacCodec
  import Ipv4Codec
  import IpCodec
  import CharData

  /** The status a thrown sai_thrift_exception carries. */
  datatype Status = InvalidParameter | NotSupported

  /** Whether a conversion returned or threw. */
  datatype Outcome = Returned | Thrown(status: Status)

  /** A conversion's effect: the output attribute as the call leaves it, the
      heap, and whether the call returned or threw. */
  datatype Converted<A> = Converted(attr: A, heap: Heap, outcome: Outcome)

  /** The attribute metadata registry: the value kind of each known
      (object type, attribute id). */
  type Metadata = map<(ObjectType, AttrId), ValueType>

  /** What the codec consults but does not implement: the metadata, the
      C library's IPv6 text conversions, and the memory bytes that the
      single-prefix member reads when the union holds a prefix list. */
  datatype Env = Env(
    metadata: Metadata,
    libc: IpCodec.Libc,
    overlay: (uint32, BufferId) -> (IpCodec.Ip6, IpCodec.Ip6))

  /** sai_metadata_get_attr_metadata. */
  function Lookup(md: Metadata, ot: ObjectType, id: AttrId): (r: Option<ValueType>)
    ensures r.Some? <==> (ot, id) in md
    ensures r.Some? ==> r.value == md[(ot, id)]
  {
    if (ot, id) in md then Some(md[(ot, id)]) else None
  }

  // ----------------------------------------------------------- kind tables

  /** The ACL field primitives whose branch also sets the mask. */
  predicate HasMask(p: AclPrim) {
    !(p.PBool? || p.PObjectId? || p.PObjectList?)
  }

  /** The kinds convert_attr_thrift_to_sai has a branch for. */
  predicate DecodeHandles(k: ValueType) {
    match k
    case Unlisted(_) => false
    case AclFieldData(p) => p != PIpAddress
    case AclActionData(p) => p != PUInt8List
    case _ => true
  }

  /** The kinds convert_attr_sai_to_thrift has a branch for. */
  predicate EncodeHandles(k: ValueType) {
    !(k.Unlisted? || k.AclFieldData? || k.AclActionData?)
  }

  /** The list kinds: each attribute owns one buffer. */
  predicate IsList(k: ValueType) {
    || k.ObjectList? || k.UInt8List? || k.Int8List? || k.UInt16List? || k.Int16List?
    || k.UInt32List? || k.Int32List? || k.UInt16RangeList? || k.AclCapability?
    || k.AclResourceList? || k.IpAddressList? || k.IpPrefixList? || k.QosMapList?
  }

  /** How many buffers the decoder allocates for a kind. */
  function Allocations(k: ValueType): nat {
    if IsList(k) then 1
    else if k == AclFieldData(PUInt8List) then 2
    else if k == AclFieldData(PObjectList) || k == AclActionData(PObjectList) then 1
    else 0
  }

  /** The scalar kind an ACL primitive stands for. */
  function PrimKind(p: AclPrim): ValueType {
    match p
    case PBool => Bool
    case PUInt8 => UInt8
    case PInt8 => Int8
    case PUInt16 => UInt16
    case PInt16 => Int16
    case PUInt32 => UInt32
    case PInt32 => Int32
    case PMac => Mac
    case PIpv4 => Ipv4
    case PIpv6 => Ipv6
    case PIpAddress => IpAddress
    case PObjectId => ObjectId
    case PObjectList => ObjectList
    case PUInt8List => UInt8List
  }

  /** The union member a kind selects is the one v holds. */
  predicate Carries(k: ValueType, v: NativeValue)
    decreases v
  {
    match k
    case Bool => v.BoolVal?
    case CharData => v.CharVal?
    case UInt8 => v.U8Val?
    case Int8 => v.S8Val?
    case UInt16 => v.U16Val?
    case Int16 => v.S16Val?
    case UInt32 => v.U32Val?
    case Int32 => v.S32Val?
    case UInt64 => v.U64Val?
    case Int64 => v.S64Val?
    case Mac => v.MacVal?
    case Ipv4 => v.Ip4Val?
    case Ipv6 => v.Ip6Val?
    case IpAddress => v.IpAddrVal?
    case IpPrefix => v.IpPrefixVal?
    case ObjectId => v.OidVal?
    case ObjectList => v.ObjListVal?
    case UInt8List => v.U8ListVal?
    case Int8List => v.S8ListVal?
    case UInt16List => v.U16ListVal?
    case Int16List => v.S16ListVal?
    case UInt32List => v.U32ListVal?
    case Int32List => v.S32ListVal?
    case UInt32Range => v.U32RangeVal?
    case Int32Range => v.S32RangeVal?
    case UInt16RangeList => v.U16RangeListVal?
    case AclFieldData(p) =>
      && v.AclFieldVal?
      && Carries(PrimKind(p), v.aclfield.data)
      && (v.aclfield.mask.Some? <==> HasMask(p))
      && (v.aclfield.mask.Some? ==> Carries(PrimKind(p), v.aclfield.mask.value))
    case AclActionData(p) => v.AclActionVal? && Carries(PrimKind(p), v.aclaction.parameter)
    case AclCapability => v.AclCapabilityVal?
    case AclResourceList => v.AclResourceListVal?
    case IpAddressList => v.IpAddrListVal?
    case IpPrefixList => v.IpPrefixListVal?
    case QosMapList => v.QosMapListVal?
    case Unlisted(_) => true
  }

  /** Every address of a list has its family's member set. */
  predicate AddressesReadable(s: seq<IpCodec.IpAddress>) {
    forall i :: 0 <= i < |s| ==> IpCodec.Readable(s[i].family, s[i].addr)
  }

  /** The member the encoder reads for a kind is the one held, and every
      address in it has its family's member set. */
  predicate Holds(k: ValueType, v: NativeValue) {
    && Carries(k, v)
    && (k.IpAddress? ==> IpCodec.Readable(v.ipaddr.family, v.ipaddr.addr))
    && (k.IpPrefix? ==>
          IpCodec.Readable(v.ipprefix.family, v.ipprefix.addr) && IpCodec.Readable(v.ipprefix.family, v.ipprefix.mask))
    && (k.IpAddressList? ==> AddressesReadable(v.ipaddrlist.buf.elems))
  }

  /** A list member's buffer holds exactly `count` elements. */
  predicate Sized(v: NativeValue) {
    match v
    case ObjListVal(l) => |l.buf.elems| == l.count
    case U8ListVal(l) => |l.buf.elems| == l.count
    case S8ListVal(l) => |l.buf.elems| == l.count
    case U16ListVal(l) => |l.buf.elems| == l.count
    case S16ListVal(l) => |l.buf.elems| == l.count
    case U32ListVal(l) => |l.buf.elems| == l.count
    case S32ListVal(l) => |l.buf.elems| == l.count
    case U16RangeListVal(l) => |l.buf.elems| == l.count
    case AclCapabilityVal(_, l) => |l.buf.elems| == l.count
    case AclResourceListVal(l) => |l.buf.elems| == l.count
    case IpAddrListVal(l) => |l.buf.elems| == l.count
    case IpPrefixListVal(l) => |l.buf.elems| == l.count
    case QosMapListVal(l) => |l.buf.elems| == l.count
    case _ => true
  }

  /** What the encoder demands of the native value, for a kind it handles:
      the member it reads is the one held, a list's buffer holds `count`
      elements, and the buffers it owns are live. */
  predicate Encodable(k: ValueType, v: NativeValue, h: Heap) {
    EncodeHandles(k) ==> Holds(k, v) && Sized(v) && Owned(v) <= h.live
  }

  /** `w` with the member kind `k` selects taken from `src`, every other
      member kept. */
  function Member(k: ValueType, w: WireValue, src: WireValue): WireValue {
    match k
    case Bool => w.(booldata := src.booldata)
    case CharData => w.(chardata := src.chardata)
    case UInt8 => w.(u8 := src.u8)
    case Int8 => w.(s8 := src.s8)
    case UInt16 => w.(u16 := src.u16)
    case Int16 => w.(s16 := src.s16)
    case UInt32 => w.(u32 := src.u32)
    case Int32 => w.(s32 := src.s32)
    case UInt64 => w.(u64 := src.u64)
    case Int64 => w.(s64 := src.s64)
    case Mac => w.(mac := src.mac)
    case Ipv4 => w.(ip4 := src.ip4)
    case Ipv6 => w.(ip6 := src.ip6)
    case IpAddress => w.(ipaddr := src.ipaddr)
    case IpPrefix => w.(ipprefix := src.ipprefix)
    case ObjectId => w.(oid := src.oid)
    case ObjectList => w.(objlist := src.objlist)
    case UInt8List => w.(u8list := src.u8list)
    case Int8List => w.(s8list := src.s8list)
    case UInt16List => w.(u16list := src.u16list)
    case Int16List => w.(s16list := src.s16list)
    case UInt32List => w.(u32list := src.u32list)
    case Int32List => w.(s32list := src.s32list)
    case UInt32Range => w.(u32range := src.u32range)
    case Int32Range => w.(s32range := src.s32range)
    case UInt16RangeList => w.(u16rangelist := src.u16rangelist)
    case AclFieldData(_) => w.(aclfield := src.aclfield)
    case AclActionData(_) => w.(aclaction := src.aclaction)
    case AclCapability => w.(aclcapability := src.aclcapability)
    case AclResourceList => w.(aclresource := src.aclresource)
    case IpAddressList => w.(ipaddrlist := src.ipaddrlist)
    case IpPrefixList => w.(ipprefixlist := src.ipprefixlist)
    case QosMapList => w.(qosmap := src.qosmap)
    case Unlisted(_) => w
  }

  /** A wire list whose count is the length of its sequence. */
  predicate Agrees<T>(l: WireList<T>) {
    l.count == |l.items|
  }

  /** The decoder sizes each buffer by the wire count but writes one element
      per sequence entry: the two must agree for the list the kind reads. */
  predicate CountsAgree(k: ValueType, w: WireValue) {
    match k
    case ObjectList => Agrees(w.objlist)
    case UInt8List => Agrees(w.u8list)
    case Int8List => Agrees(w.s8list)
    case UInt16List => Agrees(w.u16list)
    case Int16List => Agrees(w.s16list)
    case UInt32List => Agrees(w.u32list)
    case Int32List => Agrees(w.s32list)
    case UInt16RangeList => Agrees(w.u16rangelist)
    case AclFieldData(p) =>
      && (p == PObjectList ==> Agrees(w.aclfield.data.objlist))
      && (p == PUInt8List ==> Agrees(w.aclfield.data.u8list) && Agrees(w.aclfield.mask.u8list))
    case AclActionData(p) => p == PObjectList ==> Agrees(w.aclaction.parameter.objlist)
    case AclCapability => Agrees(w.aclcapability.actionList)
    case AclResourceList => Agrees(w.aclresource)
    case IpAddressList => Agrees(w.ipaddrlist)
    case IpPrefixList => Agrees(w.ipprefixlist)
    case QosMapList => Agrees(w.qosmap)
    case _ => true
  }

  // ---------------------------------------------------------------- decode

  /** A decoded list: buffer `b` holding the wire elements in order, with
      the wire count. */
  function Placed<T>(l: WireList<T>, b: BufferId): (r: NativeList<T>)
    ensures Agrees(l) ==> |r.buf.elems| == r.count
  {
    NativeList(l.count, Buffer(b, l.items))
  }

  /** A native list holding the wire list's count and its elements, in order. */
  ghost predicate CopiedFrom<T>(l: NativeList<T>, w: WireList<T>) {
    l.count == w.count && l.buf.elems == w.items
  }

  /** The decoded list of kind `k` carries the wire count and, except for
      the address and prefix lists, whose elements are parsed one by one,
      the wire elements in order; a capability also carries the wire's
      mandatory flag. */
  ghost predicate HoldsWireList(k: ValueType, w: WireValue, v: NativeValue)
    requires IsList(k) && Carries(k, v)
  {
    match k
    case ObjectList => CopiedFrom(v.objlist, w.objlist)
    case UInt8List => CopiedFrom(v.u8list, w.u8list)
    case Int8List => CopiedFrom(v.s8list, w.s8list)
    case UInt16List => CopiedFrom(v.u16list, w.u16list)
    case Int16List => CopiedFrom(v.s16list, w.s16list)
    case UInt32List => CopiedFrom(v.u32list, w.u32list)
    case Int32List => CopiedFrom(v.s32list, w.s32list)
    case UInt16RangeList => CopiedFrom(v.u16rangelist, w.u16rangelist)
    case AclCapability =>
      && v.isActionListMandatory == w.aclcapability.isActionListMandatory
      && CopiedFrom(v.actionList, w.aclcapability.actionList)
    case AclResourceList => CopiedFrom(v.aclresource, w.aclresource)
    case IpAddressList =>
      v.ipaddrlist.count == w.ipaddrlist.count && |v.ipaddrlist.buf.elems| == |w.ipaddrlist.items|
    case IpPrefixList =>
      v.ipprefixlist.count == w.ipprefixlist.count && |v.ipprefixlist.buf.elems| == |w.ipprefixlist.items|
    case QosMapList => CopiedFrom(v.qosmap, w.qosmap)
  }

  function ParseAddresses(libc: IpCodec.Libc, s: seq<IpCodec.WireIpAddress>): (r: seq<IpCodec.IpAddress>)
    ensures |r| == |s| && AddressesReadable(r)
    ensures forall i :: 0 <= i < |s| ==> r[i] == IpCodec.ParseAddress(libc, s[i])
  {
    seq(|s|, i requires 0 <= i < |s| => IpCodec.ParseAddress(libc, s[i]))
  }

  /** Every prefix of a list has its family's member set, in address and mask. */
  predicate PrefixesReadable(s: seq<IpCodec.IpPrefix>) {
    forall i :: 0 <= i < |s| ==>
      IpCodec.Readable(s[i].family, s[i].addr) && IpCodec.Readable(s[i].family, s[i].mask)
  }

  function ParsePrefixes(libc: IpCodec.Libc, s: seq<IpCodec.WireIpPrefix>): (r: seq<IpCodec.IpPrefix>)
    ensures |r| == |s| && PrefixesReadable(r)
    ensures forall i :: 0 <= i < |s| ==> r[i] == IpCodec.ParsePrefix(libc, s[i])
  {
    seq(|s|, i requires 0 <= i < |s| => IpCodec.ParsePrefix(libc, s[i]))
  }

  /** The ACL primitives whose member is a list, owning one buffer. */
  predicate ListPrim(p: AclPrim) {
    p.PObjectList? || p.PUInt8List?
  }

  /** One ACL data, mask or parameter member, decoded by its primitive; a
      list goes into buffer `b`. */
  function DecodeAclData(env: Env, p: AclPrim, d: WireAclData, b: BufferId): NativeValue {
    match p
    case PBool => BoolVal(d.booldata)
    case PUInt8 => U8Val(d.u8)
    case PInt8 => S8Val(d.s8)
    case PUInt16 => U16Val(d.u16)
    case PInt16 => S16Val(d.s16)
    case PUInt32 => U32Val(d.u32)
    case PInt32 => S32Val(d.s32)
    case PMac => MacVal(MacCodec.Parse(d.mac).mac)
    case PIpv4 => Ip4Val(Ipv4Codec.Parse(d.ip4))
    case PIpv6 => Ip6Val(env.libc.pton6(d.ip6))
    case PIpAddress => IpAddrVal(IpCodec.ParseAddress(env.libc, d.ipaddr))
    case PObjectId => OidVal(d.oid)
    case PObjectList => ObjListVal(Placed(d.objlist, b))
    case PUInt8List => U8ListVal(Placed(d.u8list, b))
  }

  /** An ACL member decodes to a value of its primitive's kind, owning
      buffer `b` exactly when the primitive is a list. */
  lemma DecodeAclDataFits(env: Env, p: AclPrim, d: WireAclData, b: BufferId)
    ensures var v := DecodeAclData(env, p, d, b);
      Carries(PrimKind(p), v) && Owned(v) == if ListPrim(p) then {b} else {}
  {
  }

  predicate IsAcl(k: ValueType) {
    k.AclFieldData? || k.AclActionData?
  }

  /** The decoder's branches that allocate nothing and read no ACL record. */
  function DecodeScalar(env: Env, k: ValueType, w: WireValue): (r: Result<NativeValue, Status>)
    requires !IsList(k) && !IsAcl(k)
    ensures r.Failure? <==> k.Unlisted?
    ensures r.Failure? ==> r.error == NotSupported
  {
    match k
    case Bool => Success(BoolVal(w.booldata))
    case CharData => Success(CharVal(CharData.FromText(w.chardata)))
    case UInt8 => Success(U8Val(w.u8))
    case Int8 => Success(S8Val(w.s8))
    case UInt16 => Success(U16Val(w.u16))
    case Int16 => Success(S16Val(w.s16))
    case UInt32 => Success(U32Val(w.u32))
    case Int32 => Success(S32Val(w.s32))
    case UInt64 => Success(U64Val(w.u64))
    case Int64 => Success(S64Val(w.s64))
    // the parser's verdict is discarded: a malformed MAC still decodes
    case Mac => Success(MacVal(MacCodec.Parse(w.mac).mac))
    case Ipv4 => Success(Ip4Val(Ipv4Codec.Parse(w.ip4)))
    case Ipv6 => Success(Ip6Val(env.libc.pton6(w.ip6)))
    case IpAddress => Success(IpAddrVal(IpCodec.ParseAddress(env.libc, w.ipaddr)))
    case IpPrefix => Success(IpPrefixVal(IpCodec.ParsePrefix(env.libc, w.ipprefix)))
    case ObjectId => Success(OidVal(w.oid))
    case UInt32Range => Success(U32RangeVal(w.u32range))
    case Int32Range => Success(S32RangeVal(w.s32range))
    case Unlisted(_) => Failure(NotSupported)
  }

  /** The scalars both switches copy as they are: booleans, integers,
      object ids and ranges. */
  predicate VerbatimScalar(k: ValueType) {
    || k.Bool? || k.UInt8? || k.Int8? || k.UInt16? || k.Int16? || k.UInt32? || k.Int32?
    || k.UInt64? || k.Int64? || k.ObjectId? || k.UInt32Range? || k.Int32Range?
  }

  /** The native scalar `v` and the wire member of kind `k` hold the same
      value: for a range, the same minimum and the same maximum. */
  ghost predicate SameScalar(k: ValueType, w: WireValue, v: NativeValue)
    requires VerbatimScalar(k) && Carries(k, v)
  {
    match k
    case Bool => v.booldata == w.booldata
    case UInt8 => v.u8 == w.u8
    case Int8 => v.s8 == w.s8
    case UInt16 => v.u16 == w.u16
    case Int16 => v.s16 == w.s16
    case UInt32 => v.u32 == w.u32
    case Int32 => v.s32 == w.s32
    case UInt64 => v.u64 == w.u64
    case Int64 => v.s64 == w.s64
    case ObjectId => v.oid == w.oid
    case UInt32Range => v.u32range.min == w.u32range.min && v.u32range.max == w.u32range.max
    case Int32Range => v.s32range.min == w.s32range.min && v.s32range.max == w.s32range.max
  }

  /** The member DecodeScalar sets is the one its kind selects, owns no
      buffer, and is one the encoder can read; a verbatim scalar holds the
      wire value. */
  lemma DecodeScalarFits(env: Env, k: ValueType, w: WireValue)
    requires !IsList(k) && !IsAcl(k) && !k.Unlisted?
    ensures var v := DecodeScalar(env, k, w).value;
      Carries(k, v) && Holds(k, v) && Sized(v) && Owned(v) == {}
    ensures VerbatimScalar(k) ==> SameScalar(k, w, DecodeScalar(env, k, w).value)
  {
  }

  /** The lists whose elements are integers or object ids. */
  predicate IsIntList(k: ValueType) {
    || k.ObjectList? || k.UInt8List? || k.Int8List? || k.UInt16List? || k.Int16List?
    || k.UInt32List? || k.Int32List?
  }

  /** The decoder's integer-list branches: the buffer `b` holds the wire
      elements in order. */
  function DecodeIntList(k: ValueType, w: WireValue, b: BufferId): (v: NativeValue)
    requires IsIntList(k)
  {
    match k
    case ObjectList => ObjListVal(Placed(w.objlist, b))
    case UInt8List => U8ListVal(Placed(w.u8list, b))
    case Int8List => S8ListVal(Placed(w.s8list, b))
    case UInt16List => U16ListVal(Placed(w.u16list, b))
    case Int16List => S16ListVal(Placed(w.s16list, b))
    case UInt32List => U32ListVal(Placed(w.u32list, b))
    case Int32List => S32ListVal(Placed(w.s32list, b))
  }

  /** The member DecodeIntList sets is the one its kind selects, and when
      the counts agree its buffer holds `count` elements. */
  lemma DecodeIntListFits(k: ValueType, w: WireValue, b: BufferId)
    requires IsIntList(k)
    ensures var v := DecodeIntList(k, w, b);
      Carries(k, v) && Holds(k, v) && Owned(v) == {b} && (CountsAgree(k, w) ==> Sized(v))
    ensures IsList(k) && HoldsWireList(k, w, DecodeIntList(k, w, b))
  {
  }

  /** The decoder's record-list branches: the buffer `b` holds the wire
      records in order, addresses and prefixes parsed one by one. */
  function DecodeRecordList(env: Env, k: ValueType, w: WireValue, b: BufferId): (v: NativeValue)
    requires IsList(k) && !IsIntList(k)
  {
    match k
    case UInt16RangeList => U16RangeListVal(Placed(w.u16rangelist, b))
    case AclCapability =>
      AclCapabilityVal(w.aclcapability.isActionListMandatory, Placed(w.aclcapability.actionList, b))
    case AclResourceList => AclResourceListVal(Placed(w.aclresource, b))
    case IpAddressList =>
      IpAddrListVal(NativeList(w.ipaddrlist.count, Buffer(b, ParseAddresses(env.libc, w.ipaddrlist.items))))
    case IpPrefixList =>
      IpPrefixListVal(NativeList(w.ipprefixlist.count, Buffer(b, ParsePrefixes(env.libc, w.ipprefixlist.items))))
    case QosMapList => QosMapListVal(Placed(w.qosmap, b))
  }

  /** The member DecodeRecordList sets is the one its kind selects, its
      addresses and prefixes are readable, and when the counts agree its
      buffer holds `count` elements. */
  lemma DecodeRecordListFits(env: Env, k: ValueType, w: WireValue, b: BufferId)
    requires IsList(k) && !IsIntList(k)
    ensures var v := DecodeRecordList(env, k, w, b);
      Carries(k, v) && Holds(k, v) && Owned(v) == {b} && (CountsAgree(k, w) ==> Sized(v))
    ensures k.IpPrefixList? ==> PrefixesReadable(DecodeRecordList(env, k, w, b).ipprefixlist.buf.elems)
    ensures HoldsWireList(k, w, DecodeRecordList(env, k, w, b))
  {
  }

  /** The decoder's ACL field branches: enable, then the data member and,
      for a primitive with one, the mask member; a u8 list allocates the
      data buffer at `b`, then the mask buffer after it. */
  function DecodeAclField(env: Env, p: AclPrim, f: WireAclField, b: BufferId): (v: NativeValue)
    requires p != PIpAddress
  {
    var data := DecodeAclData(env, p, f.data, b);
    var mask := if HasMask(p) then Some(DecodeAclData(env, p, f.mask, b + 1)) else None;
    AclFieldVal(AclField(f.enable, data, mask))
  }

  /** The decoder's ACL action branches: enable and the parameter member. */
  function DecodeAclAction(env: Env, p: AclPrim, a: WireAclAction, b: BufferId): (v: NativeValue)
    requires p != PUInt8List
  {
    AclActionVal(AclAction(a.enable, DecodeAclData(env, p, a.parameter, b)))
  }

  /** The member DecodeAclField sets is the one its kind selects, a mask
      present exactly for the primitives that have one, and it owns the
      buffers allocated from `b` on: none, or data and mask for a u8 list. */
  lemma DecodeAclFieldFits(env: Env, p: AclPrim, f: WireAclField, b: BufferId)
    requires p != PIpAddress
    ensures var v := DecodeAclField(env, p, f, b);
      Carries(AclFieldData(p), v) && Owned(v) == Fresh(b, Allocations(AclFieldData(p)))
  {
    FreshSmall(b);
    DecodeAclDataFits(env, p, f.data, b);
    DecodeAclDataFits(env, p, f.mask, b + 1);
  }

  /** The member DecodeAclAction sets is the one its kind selects, owning
      the buffer at `b` for an object list and none otherwise. */
  lemma DecodeAclActionFits(env: Env, p: AclPrim, a: WireAclAction, b: BufferId)
    requires p != PUInt8List
    ensures var v := DecodeAclAction(env, p, a, b);
      Carries(AclActionData(p), v) && Owned(v) == Fresh(b, Allocations(AclActionData(p)))
  {
    FreshSmall(b);
    DecodeAclDataFits(env, p, a.parameter, b);
  }

  /** The value conversion behind the decoder's switch: the native member
      for the kind and the heap after its allocations, or NOT_SUPPORTED. */
  function DecodeValue(env: Env, k: ValueType, w: WireValue, h: Heap): (r: Result<(NativeValue, Heap), Status>)
    ensures r.Failure? <==> !DecodeHandles(k)
    ensures r.Failure? ==> r.error == NotSupported
    ensures r.Success? ==> r.value.1 == Grow(h, Allocations(k))
  {
    if IsIntList(k) then
      Success((DecodeIntList(k, w, h.next), Grow(h, Allocations(k))))
    else if IsList(k) then
      Success((DecodeRecordList(env, k, w, h.next), Grow(h, Allocations(k))))
    else if k.AclFieldData? then
      if k.field == PIpAddress then Failure(NotSupported)
      else Success((DecodeAclField(env, k.field, w.aclfield, h.next), Grow(h, Allocations(k))))
    else if k.AclActionData? then
      if k.action == PUInt8List then Failure(NotSupported)
      else Success((DecodeAclAction(env, k.action, w.aclaction, h.next), Grow(h, Allocations(k))))
    else
      match DecodeScalar(env, k, w)
      case Failure(e) => Failure(e)
      case Success(v) => Success((v, Grow(h, Allocations(k))))
  }

  /** The member DecodeValue sets is the one the kind selects, it owns
      exactly the buffers the decoder allocated, and when the list counts
      agree the encoder can read it back from the new heap. */
  lemma DecodeValueFits(env: Env, k: ValueType, w: WireValue, h: Heap)
    requires DecodeValue(env, k, w, h).Success?
    ensures var (v, h') := DecodeValue(env, k, w, h).value;
      && Carries(k, v)
      && Owned(v) == Fresh(h.next, Allocations(k))
      && (CountsAgree(k, w) ==> Encodable(k, v, h'))
  {
    FreshSmall(h.next);
    if IsIntList(k) {
      assert Allocations(k) == 1;
      DecodeIntListFits(k, w, h.next);
    } else if IsList(k) {
      assert Allocations(k) == 1;
      DecodeRecordListFits(env, k, w, h.next);
    } else if k.AclFieldData? {
      assert k == AclFieldData(k.field);
      DecodeAclFieldFits(env, k.field, w.aclfield, h.next);
    } else if k.AclActionData? {
      assert k == AclActionData(k.action);
      DecodeAclActionFits(env, k.action, w.aclaction, h.next);
    } else {
      assert Allocations(k) == 0;
      DecodeScalarFits(env, k, w);
    }
  }

  /** For a known kind, the wire list's count agrees with its items: the
      decoder sizes the buffer by the one and fills it from the other, so
      only then is the decoded list one the encoder can read. */
  predicate DecodeReady(env: Env, ot: ObjectType, w: WireAttr) {
    var md := Lookup(env.metadata, ot, w.id);
    md.Some? ==> CountsAgree(md.value, w.value)
  }

  /** convert_attr_thrift_to_sai. The id is written first; an unknown
      attribute throws INVALID_PARAMETER and a kind without a branch throws
      NOT_SUPPORTED, both leaving the rest of the output and the heap as they
      were. Otherwise the member for the kind is set and the buffers it owns
      are exactly the ones the decoder allocated. */
  function Decode(env: Env, ot: ObjectType, w: WireAttr, into: NativeAttr, h: Heap): (r: Converted<NativeAttr>)
    ensures r.attr.id == w.id
    ensures r.outcome.Thrown? ==> r.attr == into.(id := w.id) && r.heap == h
    ensures r.outcome == Thrown(InvalidParameter) <==> (ot, w.id) !in env.metadata
    ensures r.outcome == Thrown(NotSupported) <==>
      (ot, w.id) in env.metadata && !DecodeHandles(env.metadata[(ot, w.id)])
    ensures r.outcome == Returned ==> r.heap == Grow(h, Allocations(env.metadata[(ot, w.id)]))
  {
    match Lookup(env.metadata, ot, w.id)
    case None => Converted(into.(id := w.id), h, Thrown(InvalidParameter))
    case Some(k) =>
      match DecodeValue(env, k, w.value, h)
      case Failure(e) => Converted(into.(id := w.id), h, Thrown(e))
      case Success((v, h')) => Converted(NativeAttr(w.id, v), h', Returned)
  }

  /** What Decode returns is a value of the attribute's kind, owning
      exactly the buffers the decoder allocated, and one the encoder can
      read back with the heap Decode leaves: decode output is encode input. */
  lemma DecodeFits(env: Env, ot: ObjectType, w: WireAttr, into: NativeAttr, h: Heap)
    requires DecodeReady(env, ot, w)
    ensures
      var r := Decode(env, ot, w, into, h);
      r.outcome == Returned ==>
        && Carries(env.metadata[(ot, w.id)], r.attr.value)
        && Owned(r.attr.value) == Fresh(h.next, Allocations(env.metadata[(ot, w.id)]))
        && EncodeReady(env, ot, r.attr, r.heap)
  {
    var r := Decode(env, ot, w, into, h);
    if r.outcome == Returned {
      DecodeValueFits(env, env.metadata[(ot, w.id)], w.value, h);
    }
  }

  // ---------------------------------------------------------------- encode

  /** A list copied out of its buffer: the count is set and the `count`
      elements go after whatever the wire list already held. */
  function AppendList<T>(into: WireList<T>, l: NativeList<T>): (r: WireList<T>)
    requires |l.buf.elems| == l.count
    ensures r.count == l.count && |r.items| == |into.items| + l.count
    ensures r.items[..|into.items|] == into.items && r.items[|into.items|..] == l.buf.elems
  {
    WireList(l.count, into.items + l.buf.elems)
  }

  /** A wire list whose count is the native count and whose items are the
      prior items followed by the native elements, in order. */
  ghost predicate AppendedTo<T>(r: WireList<T>, into: WireList<T>, l: NativeList<T>) {
    r.count == l.count && r.items == into.items + l.buf.elems
  }

  /** What the encoder writes for list kind `k`: the count, and the elements
      after the items the wire list already held; an address or prefix list
      gets one wire element per native element. */
  ghost predicate WritesList(k: ValueType, into: WireValue, v: NativeValue, r: WireValue)
    requires IsList(k) && Carries(k, v)
  {
    match k
    case ObjectList => AppendedTo(r.objlist, into.objlist, v.objlist)
    case UInt8List => AppendedTo(r.u8list, into.u8list, v.u8list)
    case Int8List => AppendedTo(r.s8list, into.s8list, v.s8list)
    case UInt16List => AppendedTo(r.u16list, into.u16list, v.u16list)
    case Int16List => AppendedTo(r.s16list, into.s16list, v.s16list)
    case UInt32List => AppendedTo(r.u32list, into.u32list, v.u32list)
    case Int32List => AppendedTo(r.s32list, into.s32list, v.s32list)
    case UInt16RangeList => AppendedTo(r.u16rangelist, into.u16rangelist, v.u16rangelist)
    case AclCapability => AppendedTo(r.aclcapability.actionList, into.aclcapability.actionList, v.actionList)
    case AclResourceList => AppendedTo(r.aclresource, into.aclresource, v.aclresource)
    case IpAddressList =>
      && r.ipaddrlist.count == v.ipaddrlist.count
      && |r.ipaddrlist.items| == |into.ipaddrlist.items| + v.ipaddrlist.count
      && r.ipaddrlist.items[..|into.ipaddrlist.items|] == into.ipaddrlist.items
    case IpPrefixList =>
      && r.ipprefixlist.count == v.ipprefixlist.count
      && |r.ipprefixlist.items| == |into.ipprefixlist.items| + v.ipprefixlist.count
      && r.ipprefixlist.items[..|into.ipprefixlist.items|] == into.ipprefixlist.items
    case QosMapList => AppendedTo(r.qosmap, into.qosmap, v.qosmap)
  }

  /** Each address, written into a freshly constructed wire address, in
      order: every address of a family the conversions invert reads back
      as itself, and one of neither family stays the default. */
  function AddressesToWire(libc: IpCodec.Libc, s: seq<IpCodec.IpAddress>): (r: seq<IpCodec.WireIpAddress>)
    requires AddressesReadable(s)
    ensures |r| == |s|
    ensures forall i :: 0 <= i < |s| && IpCodec.FamilyExact(libc, s[i].family) ==>
      IpCodec.ParseAddress(libc, r[i]) == s[i]
    ensures forall i :: 0 <= i < |s| && s[i].family != IpCodec.IPV4 && s[i].family != IpCodec.IPV6 ==>
      r[i] == IpCodec.DEFAULT_ADDRESS
  {
    var r := seq(|s|, i requires 0 <= i < |s| => IpCodec.AddressToWire(libc, IpCodec.DEFAULT_ADDRESS, s[i]));
    assert forall i :: 0 <= i < |s| && IpCodec.FamilyExact(libc, s[i].family) ==>
      IpCodec.ParseAddress(libc, r[i]) == s[i] by {
      forall i | 0 <= i < |s| && IpCodec.FamilyExact(libc, s[i].family)
        ensures IpCodec.ParseAddress(libc, r[i]) == s[i]
      {
        IpCodec.AddressRoundTrip(libc, IpCodec.DEFAULT_ADDRESS, s[i]);
      }
    }
    r
  }

  /** What the single-prefix member reads while the union holds a prefix
      list: its family overlays the list's count, its address and mask
      overlay the pointer and the bytes after it. */
  function MisreadPrefix(env: Env, l: NativeList<IpCodec.IpPrefix>): (p: IpCodec.IpPrefix)
    ensures p.family == AsInt32(l.count)
    ensures l.count > 0 ==> p.family != IpCodec.IPV4
  {
    var (a, m) := env.overlay(l.count, l.buf.id);
    IpCodec.IpPrefix(AsInt32(l.count), IpCodec.V6(a), IpCodec.V6(m))
  }

  /** The prefix-list loop: `count` times, a freshly constructed wire prefix
      filled from the single-prefix member rather than from the list. */
  function MisreadPrefixes(env: Env, l: NativeList<IpCodec.IpPrefix>): (r: seq<IpCodec.WireIpPrefix>)
    ensures |r| == l.count
  {
    if l.count == 0 then []
    else
      var e := IpCodec.PrefixToWire(env.libc, IpCodec.DEFAULT_PREFIX, MisreadPrefix(env, l));
      seq(l.count, _ => e)
  }

  /** The encoder's branches that free nothing. */
  function EncodeScalar(env: Env, k: ValueType, v: NativeValue, into: WireValue): (r: WireValue)
    requires !IsList(k) && EncodeHandles(k) && Holds(k, v)
    ensures VerbatimScalar(k) ==> SameScalar(k, r, v)
  {
    match k
    case Bool => into.(booldata := v.booldata)
    case CharData => into.(chardata := CharData.ToText(v.chardata))
    case UInt8 => into.(u8 := v.u8)
    case Int8 => into.(s8 := v.s8)
    case UInt16 => into.(u16 := v.u16)
    case Int16 => into.(s16 := v.s16)
    case UInt32 => into.(u32 := v.u32)
    case Int32 => into.(s32 := v.s32)
    case UInt64 => into.(u64 := v.u64)
    case Int64 => into.(s64 := v.s64)
    case Mac => into.(mac := MacCodec.Format(v.mac))
    case Ipv4 => into.(ip4 := Ipv4Codec.Format(v.ip4))
    case Ipv6 => into.(ip6 := env.libc.ntop6(v.ip6))
    case IpAddress => into.(ipaddr := IpCodec.AddressToWire(env.libc, into.ipaddr, v.ipaddr))
    case IpPrefix => into.(ipprefix := IpCodec.PrefixToWire(env.libc, into.ipprefix, v.ipprefix))
    case ObjectId => into.(oid := v.oid)
    case UInt32Range => into.(u32range := v.u32range)
    case Int32Range => into.(s32range := v.s32range)
  }

  /** The encoder's integer-list branches. */
  function EncodeIntList(k: ValueType, v: NativeValue, into: WireValue): (r: WireValue)
    requires IsIntList(k) && Carries(k, v) && Sized(v)
    ensures IsList(k) && WritesList(k, into, v, r)
  {
    match k
    case ObjectList => into.(objlist := AppendList(into.objlist, v.objlist))
    case UInt8List => into.(u8list := AppendList(into.u8list, v.u8list))
    case Int8List => into.(s8list := AppendList(into.s8list, v.s8list))
    case UInt16List => into.(u16list := AppendList(into.u16list, v.u16list))
    case Int16List => into.(s16list := AppendList(into.s16list, v.s16list))
    case UInt32List => into.(u32list := AppendList(into.u32list, v.u32list))
    case Int32List => into.(s32list := AppendList(into.s32list, v.s32list))
  }

  /** The encoder's record-list branches. The capability branch writes only
      the action list; the prefix-list branch reads the wrong union member. */
  function EncodeRecordList(env: Env, k: ValueType, v: NativeValue, into: WireValue): (r: WireValue)
    requires IsList(k) && !IsIntList(k) && Holds(k, v) && Sized(v)
    ensures WritesList(k, into, v, r)
  {
    match k
    case UInt16RangeList => into.(u16rangelist := AppendList(into.u16rangelist, v.u16rangelist))
    case AclCapability =>
      into.(aclcapability := into.aclcapability.(actionList := AppendList(into.aclcapability.actionList, v.actionList)))
    case AclResourceList => into.(aclresource := AppendList(into.aclresource, v.aclresource))
    case IpAddressList =>
      var l := v.ipaddrlist;
      into.(ipaddrlist := WireList(l.count, into.ipaddrlist.items + AddressesToWire(env.libc, l.buf.elems)))
    case IpPrefixList =>
      var l := v.ipprefixlist;
      into.(ipprefixlist := WireList(l.count, into.ipprefixlist.items + MisreadPrefixes(env, l)))
    case QosMapList => into.(qosmap := AppendList(into.qosmap, v.qosmap))
  }

  /** The value conversion behind the encoder's switch: the wire value with
      the kind's member written and the value's buffers freed, or
      NOT_SUPPORTED with nothing written and nothing freed. */
  function EncodeValue(env: Env, k: ValueType, v: NativeValue, into: WireValue, h: Heap): (r: Result<(WireValue, Heap), Status>)
    requires Encodable(k, v, h)
    ensures r.Failure? <==> !EncodeHandles(k)
    ensures r.Failure? ==> r.error == NotSupported
    ensures r.Success? ==> r.value.1 == Release(h, Owned(v))
    ensures r.Success? && IsList(k) ==> Carries(k, v) && WritesList(k, into, v, r.value.0)
  {
    if !EncodeHandles(k) then Failure(NotSupported)
    else if IsIntList(k) then Success((EncodeIntList(k, v, into), Release(h, Owned(v))))
    else if IsList(k) then Success((EncodeRecordList(env, k, v, into), Release(h, Owned(v))))
    else Success((EncodeScalar(env, k, v, into), Release(h, Owned(v))))
  }

  /** The precondition of Encode: for a known kind, the value is one the
      encoder can read. */
  predicate EncodeReady(env: Env, ot: ObjectType, n: NativeAttr, h: Heap) {
    var md := Lookup(env.metadata, ot, n.id);
    md.Some? ==> Encodable(md.value, n.value, h)
  }

  /** convert_attr_sai_to_thrift. The id is written first; an unknown
      attribute throws INVALID_PARAMETER and a kind without a branch
      (including every ACL field and action kind) throws NOT_SUPPORTED,
      both leaving the rest of the output and the heap as they were.
      Otherwise the member for the kind is written and exactly the buffers
      the value owns are freed. */
  function Encode(env: Env, ot: ObjectType, n: NativeAttr, into: WireAttr, h: Heap): (r: Converted<WireAttr>)
    requires EncodeReady(env, ot, n, h)
    ensures r.attr.id == n.id
    ensures r.outcome.Thrown? ==> r.attr == into.(id := n.id) && r.heap == h
    ensures r.outcome == Thrown(InvalidParameter) <==> (ot, n.id) !in env.metadata
    ensures r.outcome == Thrown(NotSupported) <==>
      (ot, n.id) in env.metadata && !EncodeHandles(env.metadata[(ot, n.id)])
    ensures r.outcome == Returned ==>
      && Owned(n.value) <= h.live
      && r.heap == Release(h, Owned(n.value))
  {
    match Lookup(env.metadata, ot, n.id)
    case None => Converted(into.(id := n.id), h, Thrown(InvalidParameter))
    case Some(k) =>
      match EncodeValue(env, k, n.value, into.value, h)
      case Failure(e) => Converted(into.(id := n.id), h, Thrown(e))
      case Success((w, h')) => Converted(WireAttr(n.id, w), h', Returned)
  }
}

=== FILE: ints.dfy ===
/** Fixed-width integers of the SAI C types, and the host byte order. */
module Ints {

  type uint8 = x: int | 0 <= x < 0x100
  type int8 = x: int | -0x80 <= x < 0x80
  type uint16 = x: int | 0 <= x < 0x1_0000
  type int16 = x: int | -0x8000 <= x < 0x8000
  type uint32 = x: int | 0 <= x < 0x1_0000_0000
  type int32 = x: int | -0x8000_0000 <= x < 0x8000_0000
  type uint64 = x: int | 0 <= x < 0x1_0000_0000_0000_0000
  type int64 = x: int | -0x8000_0000_0000_0000 <= x < 0x8000_0000_0000_0000

  const TWO_32: int := 0x1_0000_0000

  /** The 32-bit value whose bytes, most significant first, are a, b, c, d. */
  function Pack(a: uint8, b: uint8, c: uint8, d: uint8): uint32
  {
    ((a * 0x100 + b) * 0x100 + c) * 0x100 + d
  }

  /** Byte k of x, counting from the least significant byte. */
  function Byte0(x: uint32): uint8 { x % 0x100 }
  function Byte1(x: uint32): uint8 { (x / 0x100) % 0x100 }
  function Byte2(x: uint32): uint8 { ((x / 0x100) / 0x100) % 0x100 }
  function Byte3(x: uint32): uint8 { ((x / 0x100) / 0x100) / 0x100 }

  /** Reading back the bytes of a packed value gives the bytes packed. */
  lemma PackBytes(a: uint8, b: uint8, c: uint8, d: uint8)
    ensures Byte3(Pack(a, b, c, d)) == a
    ensures Byte2(Pack(a, b, c, d)) == b
    ensures Byte1(Pack(a, b, c, d)) == c
    ensures Byte0(Pack(a, b, c, d)) == d
  {
    var x := Pack(a, b, c, d);
    assert x / 0x100 == (a * 0x100 + b) * 0x100 + c;
    assert (x / 0x100) / 0x100 == a * 0x100 + b;
  }

  /** Packing the bytes of a value gives the value back. */
  lemma BytesPack(x: uint32)
    ensures Pack(Byte3(x), Byte2(x), Byte1(x), Byte0(x)) == x
  {
    var q1 := x / 0x100;
    var q2 := q1 / 0x100;
    assert x == q1 * 0x100 + Byte0(x);
    assert q1 == q2 * 0x100 + Byte1(x);
    assert q2 == Byte3(x) * 0x100 + Byte2(x);
  }

  /** htonl on a little-endian host. */
  function Htonl(x: uint32): uint32 {
    Pack(Byte0(x), Byte1(x), Byte2(x), Byte3(x))
  }

  /** htonl puts the four bytes in reverse order. */
  lemma HtonlSwapsBytes(x: uint32)
    ensures Byte3(Htonl(x)) == Byte0(x) && Byte2(Htonl(x)) == Byte1(x)
    ensures Byte1(Htonl(x)) == Byte2(x) && Byte0(Htonl(x)) == Byte3(x)
  {
    PackBytes(Byte0(x), Byte1(x), Byte2(x), Byte3(x));
  }

  /** Swapping the byte order twice is the identity. */
  lemma HtonlInvolution(x: uint32)
    ensures Htonl(Htonl(x)) == x
  {
    HtonlSwapsBytes(x);
    BytesPack(x);
  }

  /** The C conversion of a 32-bit unsigned count to a signed 32-bit enum. */
  function AsInt32(x: uint32): (r: int32)
    ensures r == x || r == x - TWO_32
    ensures r >= 0 <==> x < 0x8000_0000
  {
    if x < 0x8000_0000 then x else x - TWO_32
  }
}

=== FILE: ip_codec.dfy ===
/** IP addresses and prefixes: the family tag selects the IPv4 or IPv6
    sub-codec for the address and, in a prefix, for the mask too. */
module IpCodec {
  import opened Ints
  import Ipv4Codec

  /** The sixteen raw bytes of a sai_ip6_t. */
  type Ip6 = s: seq<uint8> | |s| == 16 witness [0, 0, 0, 0, 0, 0, 0, 0, 0, 0, 0, 0, 0, 0, 0, 0]

  /** SAI_IP_ADDR_FAMILY_IPV4 and SAI_IP_ADDR_FAMILY_IPV6. */
  const IPV4: int32 := 0
  const IPV6: int32 := 1

  /** The sai_ip_addr_t union, holding whichever member was written last. */
  datatype IpAddr = V4(ip4: uint32) | V6(ip6: Ip6)

  datatype IpAddress = IpAddress(family: int32, addr: IpAddr)

  datatype IpPrefix = IpPrefix(family: int32, addr: IpAddr, mask: IpAddr)

  /** The wire address text: both members are present, one is meaningful. */
  datatype WireIp = WireIp(ip4: string, ip6: string)

  datatype WireIpAddress = WireIpAddress(family: int32, addr: WireIp)

  datatype WireIpPrefix = WireIpPrefix(family: int32, addr: WireIp, mask: WireIp)

  const EMPTY_IP: WireIp := WireIp("", "")

  /** Default-constructed wire values: family 0, empty texts. */
  const DEFAULT_ADDRESS: WireIpAddress := WireIpAddress(0, EMPTY_IP)
  const DEFAULT_PREFIX: WireIpPrefix := WireIpPrefix(0, EMPTY_IP, EMPTY_IP)

  /** The C library's IPv6 text conversions, inet_pton and inet_ntop for
      AF_INET6, whose text form follows section 4 of RFC 5952. */
  datatype Libc = Libc(pton6: string -> Ip6, ntop6: Ip6 -> string)

  /** inet_pton reads back every address inet_ntop writes. */
  ghost predicate Ip6TextInverts(libc: Libc) {
    forall a: Ip6 :: libc.pton6(libc.ntop6(a)) == a
  }

  /** The address of one family: IPv4 for IPV4, IPv6 for any other tag. */
  function ParseIp(libc: Libc, family: int32, w: WireIp): IpAddr {
    if family == IPV4 then V4(Ipv4Codec.Parse(w.ip4)) else V6(libc.pton6(w.ip6))
  }

  /** sai_thrift_ip_address_t_parse: the family is copied, the text of that
      family is parsed; a family other than IPV4 is read as IPv6. */
  function ParseAddress(libc: Libc, w: WireIpAddress): (r: IpAddress)
    ensures r.family == w.family
    ensures r.addr.V4? <==> w.family == IPV4
    ensures w.family == IPV4 ==> r.addr.ip4 == Ipv4Codec.Parse(w.addr.ip4)
    ensures w.family != IPV4 ==> r.addr.ip6 == libc.pton6(w.addr.ip6)
  {
    IpAddress(w.family, ParseIp(libc, w.family, w.addr))
  }

  /** sai_thrift_ip_prefix_t_parse: address and mask both by the family. */
  function ParsePrefix(libc: Libc, w: WireIpPrefix): (r: IpPrefix)
    ensures r.family == w.family
    ensures r.addr.V4? <==> w.family == IPV4
    ensures r.mask.V4? <==> w.family == IPV4
    ensures w.family == IPV4 ==>
      r.addr == V4(Ipv4Codec.Parse(w.addr.ip4)) && r.mask == V4(Ipv4Codec.Parse(w.mask.ip4))
    ensures w.family != IPV4 ==>
      r.addr == V6(libc.pton6(w.addr.ip6)) && r.mask == V6(libc.pton6(w.mask.ip6))
  {
    IpPrefix(w.family, ParseIp(libc, w.family, w.addr), ParseIp(libc, w.family, w.mask))
  }

  /** The union member the encoder reads for the family is the one held. */
  predicate Readable(family: int32, a: IpAddr) {
    (family == IPV4 ==> a.V4?) && (family == IPV6 ==> a.V6?)
  }

  /** An address family the text conversions invert: IPv4 always, IPv6
      when inet_pton reads back what inet_ntop writes. */
  ghost predicate FamilyExact(libc: Libc, family: int32) {
    family == IPV4 || (family == IPV6 && Ip6TextInverts(libc))
  }

  /** Writes the text of the address into the member of its family and
      leaves the other member as it was. */
  function IpToWire(libc: Libc, into: WireIp, family: int32, a: IpAddr): WireIp
    requires Readable(family, a) && (family == IPV4 || family == IPV6)
  {
    if family == IPV4 then into.(ip4 := Ipv4Codec.Format(a.ip4))
    else into.(ip6 := libc.ntop6(a.ip6))
  }

  /** sai_ip_address_t_to_thrift: a family that is neither IPV4 nor IPV6
      writes nothing at all. */
  function AddressToWire(libc: Libc, into: WireIpAddress, a: IpAddress): (r: WireIpAddress)
    requires Readable(a.family, a.addr)
    ensures a.family != IPV4 && a.family != IPV6 ==> r == into
    ensures a.family == IPV4 ==>
      r.family == IPV4 && r.addr == into.addr.(ip4 := Ipv4Codec.Format(a.addr.ip4))
    ensures a.family == IPV6 ==>
      r.family == IPV6 && r.addr == into.addr.(ip6 := libc.ntop6(a.addr.ip6))
  {
    if a.family == IPV4 || a.family == IPV6 then
      WireIpAddress(a.family, IpToWire(libc, into.addr, a.family, a.addr))
    else into
  }

  /** sai_ip_prefix_t_to_thrift: as for an address, for address and mask. */
  function PrefixToWire(libc: Libc, into: WireIpPrefix, p: IpPrefix): (r: WireIpPrefix)
    requires Readable(p.family, p.addr) && Readable(p.family, p.mask)
    ensures p.family != IPV4 && p.family != IPV6 ==> r == into
    ensures p.family == IPV4 || p.family == IPV6 ==> r.family == p.family
    ensures p.family == IPV4 ==>
      && r.addr == into.addr.(ip4 := Ipv4Codec.Format(p.addr.ip4))
      && r.mask == into.mask.(ip4 := Ipv4Codec.Format(p.mask.ip4))
    ensures p.family == IPV6 ==>
      && r.addr == into.addr.(ip6 := libc.ntop6(p.addr.ip6))
      && r.mask == into.mask.(ip6 := libc.ntop6(p.mask.ip6))
  {
    if p.family == IPV4 || p.family == IPV6 then
      WireIpPrefix(p.family, IpToWire(libc, into.addr, p.family, p.addr), IpToWire(libc, into.mask, p.family, p.mask))
    else into
  }

  lemma IpRoundTrip(libc: Libc, into: WireIp, family: int32, a: IpAddr)
    requires Readable(family, a)
    requires FamilyExact(libc, family)
    ensures ParseIp(libc, family, IpToWire(libc, into, family, a)) == a
  {
    if family == IPV4 {
      Ipv4Codec.FormatThenParse(a.ip4);
    }
  }

  /** Encoding an address of either family, then decoding it, gives it back
      (for IPv6, given that inet_pton inverts inet_ntop). */
  lemma AddressRoundTrip(libc: Libc, into: WireIpAddress, a: IpAddress)
    requires Readable(a.family, a.addr)
    requires FamilyExact(libc, a.family)
    ensures ParseAddress(libc, AddressToWire(libc, into, a)) == a
  {
    IpRoundTrip(libc, into.addr, a.family, a.addr);
  }

  /** The same for a prefix: family, address and mask come back. */
  lemma PrefixRoundTrip(libc: Libc, into: WireIpPrefix, p: IpPrefix)
    requires Readable(p.family, p.addr) && Readable(p.family, p.mask)
    requires FamilyExact(libc, p.family)
    ensures ParsePrefix(libc, PrefixToWire(libc, into, p)) == p
  {
    IpRoundTrip(libc, into.addr, p.family, p.addr);
    IpRoundTrip(libc, into.mask, p.family, p.mask);
  }
}

=== FILE: ipv4_codec.dfy ===
/** The IPv4 codec: the lenient dotted-decimal accumulator used on decode
    and the presentation format used on encode. */
module Ipv4Codec {
  import opened Ints

  predicate IsDigit(c: char) {
    '0' <= c <= '9'
  }

  /** `(m << 8) | r` on a 32-bit unsigned accumulator: the low byte of the
      shifted value is zero, so the bitwise or is an addition. */
  function Shift(m: uint32, r: uint8): uint32 {
    (m * 0x100 + r) % TWO_32
  }

  /** Scanner state: the accumulator m and the current octet r. */
  datatype Scan = Scan(m: uint32, r: uint8)

  /** One iteration of the parsing loop: a digit extends the octet modulo
      256 (it is an unsigned char); any other character shifts it in. */
  function Step(st: Scan, c: char): Scan {
    if IsDigit(c) then Scan(st.m, (st.r * 10 + (c as int - '0' as int)) % 0x100)
    else Scan(Shift(st.m, st.r), 0)
  }

  function ScanFrom(st: Scan, s: string): Scan
    decreases |s|
  {
    if |s| == 0 then st else ScanFrom(Step(st, s[0]), s[1..])
  }

  /** The accumulator before the final htonl: the loop, then one last shift. */
  function Accumulate(s: string): uint32 {
    var st := ScanFrom(Scan(0, 0), s);
    Shift(st.m, st.r)
  }

  /** Decode: never fails; the accumulator converted to network byte order. */
  function Parse(s: string): uint32 {
    Htonl(Accumulate(s))
  }

  function DigitChar(d: nat): (c: char)
    requires d < 10
    ensures IsDigit(c) && c as int - '0' as int == d
  {
    ('0' as int + d) as char
  }

  /** An octet in decimal without leading zeros. */
  function Decimal(b: uint8): string {
    if b < 10 then [DigitChar(b)]
    else if b < 100 then [DigitChar(b / 10), DigitChar(b % 10)]
    else [DigitChar(b / 100), DigitChar((b / 10) % 10), DigitChar(b % 10)]
  }

  /** Four octets in dotted-decimal notation. */
  function Dotted(a: uint8, b: uint8, c: uint8, d: uint8): string {
    Decimal(a) + "." + Decimal(b) + "." + Decimal(c) + "." + Decimal(d)
  }

  /** Encode (inet_ntop for AF_INET): the four bytes as they lie in memory on
      a little-endian host, least significant byte first. */
  function Format(v: uint32): string {
    Dotted(Byte0(v), Byte1(v), Byte2(v), Byte3(v))
  }

  lemma {:induction false} ScanAppend(st: Scan, s: string, t: string)
    ensures ScanFrom(st, s + t) == ScanFrom(ScanFrom(st, s), t)
    decreases |s|
  {
    if |s| == 0 {
      assert s + t == t;
    } else {
      assert (s + t)[0] == s[0];
      assert (s + t)[1..] == s[1..] + t;
      ScanAppend(Step(st, s[0]), s[1..], t);
    }
  }

  lemma ScanOne(st: Scan, c: char)
    ensures ScanFrom(st, [c]) == Step(st, c)
  {
    assert [c][1..] == [];
  }

  lemma DigitStep(m: uint32, r: uint8, d: nat)
    requires d < 10 && r * 10 + d < 0x100
    ensures Step(Scan(m, r), DigitChar(d)) == Scan(m, r * 10 + d)
  {
  }

  /** Scanning an octet's decimal text from a cleared octet leaves the octet. */
  lemma ScanDecimal(m: uint32, b: uint8)
    ensures ScanFrom(Scan(m, 0), Decimal(b)) == Scan(m, b)
  {
    var s := Decimal(b);
    if b < 10 {
      ScanOne(Scan(m, 0), s[0]);
      DigitStep(m, 0, b);
    } else if b < 100 {
      assert s == [s[0]] + [s[1]];
      ScanAppend(Scan(m, 0), [s[0]], [s[1]]);
      ScanOne(Scan(m, 0), s[0]);
      DigitStep(m, 0, b / 10);
      ScanOne(Scan(m, b / 10), s[1]);
      DigitStep(m, b / 10, b % 10);
    } else {
      var h, t := b / 100, b / 10;
      assert t == h * 10 + t % 10;
      assert s == ([s[0]] + [s[1]]) + [s[2]];
      ScanAppend(Scan(m, 0), [s[0]] + [s[1]], [s[2]]);
      ScanAppend(Scan(m, 0), [s[0]], [s[1]]);
      ScanOne(Scan(m, 0), s[0]);
      DigitStep(m, 0, h);
      ScanOne(Scan(m, h), s[1]);
      DigitStep(m, h, t % 10);
      ScanOne(Scan(m, t), s[2]);
      DigitStep(m, t, b % 10);
    }
  }

  /** Scanning an octet followed by a separator shifts the octet in. */
  lemma ScanOctetDot(m: uint32, b: uint8)
    ensures ScanFrom(Scan(m, 0), Decimal(b) + ".") == Scan(Shift(m, b), 0)
  {
    ScanAppend(Scan(m, 0), Decimal(b), ".");
    ScanDecimal(m, b);
    ScanOne(Scan(m, b), '.');
  }

  lemma ShiftMod(x: int, r: uint8)
    requires 0 <= x
    ensures Shift(x % TWO_32, r) == (x * 0x100 + r) % TWO_32
  {
    var q := x / TWO_32;
    assert x * 0x100 + r == q * 0x100 * TWO_32 + ((x % TWO_32) * 0x100 + r);
  }

  /** Four shifts push any earlier accumulator content out of the 32 bits. */
  lemma FourShifts(m: uint32, a: uint8, b: uint8, c: uint8, d: uint8)
    ensures Shift(Shift(Shift(Shift(m, a), b), c), d) == Pack(a, b, c, d)
  {
    var x1 := m * 0x100 + a;
    var x2 := x1 * 0x100 + b;
    var x3 := x2 * 0x100 + c;
    var x4 := x3 * 0x100 + d;
    assert Shift(m, a) == x1 % TWO_32;
    ShiftMod(x1, b);
    assert Shift(Shift(m, a), b) == x2 % TWO_32;
    ShiftMod(x2, c);
    assert Shift(Shift(Shift(m, a), b), c) == x3 % TWO_32;
    ShiftMod(x3, d);
    assert x4 == m * TWO_32 + Pack(a, b, c, d);
    ModMultiple(m, Pack(a, b, c, d));
  }

  lemma ModMultiple(m: nat, p: uint32)
    ensures (m * TWO_32 + p) % TWO_32 == p
  {
  }

  /** The accumulator after a dotted quad scanned from a cleared octet. */
  lemma {:induction false} ScanDotted(m: uint32, a: uint8, b: uint8, c: uint8, d: uint8)
    ensures var st := ScanFrom(Scan(m, 0), Dotted(a, b, c, d));
            Shift(st.m, st.r) == Pack(a, b, c, d)
  {
    var m1 := Shift(m, a);
    var m2 := Shift(m1, b);
    var m3 := Shift(m2, c);
    assert Dotted(a, b, c, d) == (Decimal(a) + ".") + ((Decimal(b) + ".") + ((Decimal(c) + ".") + Decimal(d)));
    ScanAppend(Scan(m, 0), Decimal(a) + ".", (Decimal(b) + ".") + ((Decimal(c) + ".") + Decimal(d)));
    ScanOctetDot(m, a);
    ScanAppend(Scan(m1, 0), Decimal(b) + ".", (Decimal(c) + ".") + Decimal(d));
    ScanOctetDot(m1, b);
    ScanAppend(Scan(m2, 0), Decimal(c) + ".", Decimal(d));
    ScanOctetDot(m2, c);
    ScanDecimal(m3, d);
    FourShifts(m, a, b, c, d);
  }

  /** A dotted quad parses to its octets, most significant first, before htonl. */
  lemma AccumulateDotted(a: uint8, b: uint8, c: uint8, d: uint8)
    ensures Accumulate(Dotted(a, b, c, d)) == Pack(a, b, c, d)
  {
    ScanDotted(0, a, b, c, d);
  }

  /** Leniency: whatever precedes the last four dot-separated octets, and
      the non-digit before them, is shifted out of the accumulator. */
  lemma {:induction false} OnlyLastFourOctets(p: string, c0: char, a: uint8, b: uint8, c: uint8, d: uint8)
    requires !IsDigit(c0)
    ensures Accumulate(p + [c0] + Dotted(a, b, c, d)) == Pack(a, b, c, d)
  {
    var st := ScanFrom(Scan(0, 0), p);
    ScanAppend(Scan(0, 0), p + [c0], Dotted(a, b, c, d));
    ScanAppend(Scan(0, 0), p, [c0]);
    ScanOne(st, c0);
    ScanDotted(Shift(st.m, st.r), a, b, c, d);
  }

  /** Text made only of decimal digits. */
  predicate AllDigits(s: string) {
    forall i :: 0 <= i < |s| ==> IsDigit(s[i])
  }

  function Digit(c: char): nat
    requires IsDigit(c)
  {
    c as int - '0' as int
  }

  function Pow10(n: nat): nat {
    if n == 0 then 1 else 10 * Pow10(n - 1)
  }

  /** The number a run of digits denotes, each digit weighted by its place. */
  function DecVal(ds: string): nat
    requires AllDigits(ds)
    decreases |ds|
  {
    if |ds| == 0 then 0
    else
      DigitsTail(ds);
      Digit(ds[0]) * Pow10(|ds| - 1) + DecVal(ds[1..])
  }

  lemma ModMulAdd(x: nat, p: nat, y: nat)
    ensures ((x % 0x100) * p + y) % 0x100 == (x * p + y) % 0x100
  {
    var q := x / 0x100;
    assert x * p + y == 0x100 * (q * p) + ((x % 0x100) * p + y) by {
      assert x == 0x100 * q + x % 0x100;
    }
  }

  /** A run of digits extends the current octet by its decimal value,
      modulo 256: the octet is an unsigned char and wraps. */
  lemma {:induction false} ScanDigits(m: uint32, r: uint8, ds: string)
    requires AllDigits(ds)
    ensures ScanFrom(Scan(m, r), ds) == Scan(m, (r * Pow10(|ds|) + DecVal(ds)) % 0x100)
    decreases |ds|
  {
    if |ds| != 0 {
      var rest := ds[1..];
      DigitsTail(ds);
      var d, p, v := Digit(ds[0]), Pow10(|rest|), DecVal(rest);
      var r' := DigitWrap(r, ds[0]);
      StepDigit(m, r, ds[0]);
      assert ScanFrom(Scan(m, r), ds) == ScanFrom(Scan(m, r'), rest);
      ScanDigits(m, r', rest);
      WrapDigit(r, d, p, v, Pow10(|ds|), DecVal(ds));
    }
  }

  lemma DigitsTail(ds: string)
    requires AllDigits(ds) && |ds| > 0
    ensures AllDigits(ds[1..])
  {
    assert forall i :: 0 <= i < |ds[1..]| ==> ds[1..][i] == ds[i + 1];
  }

  /** The octet after one more digit: `(unsigned char)(r * 10 + digit)`. */
  function DigitWrap(r: uint8, c: char): uint8
    requires IsDigit(c)
  {
    (r * 10 + Digit(c)) % 0x100
  }

  lemma StepDigit(m: uint32, r: uint8, c: char)
    requires IsDigit(c)
    ensures Step(Scan(m, r), c) == Scan(m, DigitWrap(r, c))
  {
  }

  lemma Regroup(r: nat, d: nat, p: nat, v: nat)
    ensures (r * 10 + d) * p + v == r * (10 * p) + (d * p + v)
  {
  }

  /** The octet wraps after every digit, or only at the end: the same. */
  lemma WrapDigit(r: nat, d: nat, p: nat, v: nat, pp: nat, vv: nat)
    requires pp == 10 * p && vv == d * p + v
    ensures (((r * 10 + d) % 0x100) * p + v) % 0x100 == (r * pp + vv) % 0x100
  {
    ModMulAdd(r * 10 + d, p, v);
    Regroup(r, d, p, v);
  }

  /** A run of digits followed by any non-digit shifts its value, modulo
      256, in. */
  lemma ScanRunSep(m: uint32, ds: string, c: char)
    requires AllDigits(ds) && !IsDigit(c)
    ensures ScanFrom(Scan(m, 0), ds + [c]) == Scan(Shift(m, DecVal(ds) % 0x100), 0)
  {
    ScanAppend(Scan(m, 0), ds, [c]);
    ScanDigits(m, 0, ds);
    ScanOne(Scan(m, DecVal(ds) % 0x100), c);
  }

  /** Four runs of digits separated by non-digits, scanned from a cleared
      octet, push their values, each modulo 256, through the accumulator. */
  lemma {:induction false} ScanRuns(m: uint32, w: string, x: string, y: string, z: string, c1: char, c2: char, c3: char)
    requires AllDigits(w) && AllDigits(x) && AllDigits(y) && AllDigits(z)
    requires !IsDigit(c1) && !IsDigit(c2) && !IsDigit(c3)
    ensures var st := ScanFrom(Scan(m, 0), w + [c1] + x + [c2] + y + [c3] + z);
      Shift(st.m, st.r) == Pack(DecVal(w) % 0x100, DecVal(x) % 0x100, DecVal(y) % 0x100, DecVal(z) % 0x100)
  {
    var a, b, c, d := DecVal(w) % 0x100, DecVal(x) % 0x100, DecVal(y) % 0x100, DecVal(z) % 0x100;
    var m1 := Shift(m, a);
    var m2 := Shift(m1, b);
    assert w + [c1] + x + [c2] + y + [c3] + z == (w + [c1]) + ((x + [c2]) + ((y + [c3]) + z));
    ScanAppend(Scan(m, 0), w + [c1], (x + [c2]) + ((y + [c3]) + z));
    ScanRunSep(m, w, c1);
    ScanAppend(Scan(m1, 0), x + [c2], (y + [c3]) + z);
    ScanRunSep(m1, x, c2);
    ScanAppend(Scan(m2, 0), y + [c3], z);
    ScanRunSep(m2, y, c3);
    ScanDigits(Shift(m2, c), 0, z);
    FourShifts(m, a, b, c, d);
  }

  /** Four runs of digits separated by any non-digits accumulate to their
      values, each taken modulo 256, most significant first. */
  lemma AccumulateRuns(w: string, x: string, y: string, z: string, c1: char, c2: char, c3: char)
    requires AllDigits(w) && AllDigits(x) && AllDigits(y) && AllDigits(z)
    requires !IsDigit(c1) && !IsDigit(c2) && !IsDigit(c3)
    ensures Accumulate(w + [c1] + x + [c2] + y + [c3] + z) ==
      Pack(DecVal(w) % 0x100, DecVal(x) % 0x100, DecVal(y) % 0x100, DecVal(z) % 0x100)
  {
    ScanRuns(0, w, x, y, z, c1, c2, c3);
  }

  /** Leniency, for runs: whatever precedes the last four runs of digits and
      the non-digit before them is shifted out of the accumulator. */
  lemma {:induction false} OnlyLastFourRuns(p: string, c0: char, w: string, x: string, y: string, z: string,
                                            c1: char, c2: char, c3: char)
    requires AllDigits(w) && AllDigits(x) && AllDigits(y) && AllDigits(z)
    requires !IsDigit(c0) && !IsDigit(c1) && !IsDigit(c2) && !IsDigit(c3)
    ensures Accumulate(p + [c0] + (w + [c1] + x + [c2] + y + [c3] + z)) ==
      Pack(DecVal(w) % 0x100, DecVal(x) % 0x100, DecVal(y) % 0x100, DecVal(z) % 0x100)
  {
    var st := ScanFrom(Scan(0, 0), p);
    var q := w + [c1] + x + [c2] + y + [c3] + z;
    ScanAppend(Scan(0, 0), p + [c0], q);
    ScanAppend(Scan(0, 0), p, [c0]);
    ScanOne(st, c0);
    ScanRuns(Shift(st.m, st.r), w, x, y, z, c1, c2, c3);
  }

  lemma DecValOne(a: char)
    requires IsDigit(a)
    ensures AllDigits([a]) && DecVal([a]) == Digit(a)
  {
    assert [a][1..] == [];
  }

  lemma DecValTwo(a: char, b: char)
    requires IsDigit(a) && IsDigit(b)
    ensures AllDigits([a, b]) && DecVal([a, b]) == Digit(a) * 10 + Digit(b)
  {
    assert [a, b][1..] == [b];
    DecValOne(b);
  }

  lemma DecValThree(a: char, b: char, c: char)
    requires IsDigit(a) && IsDigit(b) && IsDigit(c)
    ensures AllDigits([a, b, c]) && DecVal([a, b, c]) == Digit(a) * 100 + Digit(b) * 10 + Digit(c)
  {
    assert [a, b, c][1..] == [b, c];
    DecValTwo(b, c);
    assert Pow10(2) == 100;
  }

  /** An octet's text denotes the octet. */
  lemma DecimalValue(b: uint8)
    ensures AllDigits(Decimal(b)) && DecVal(Decimal(b)) == b
  {
    if b < 10 {
      DecValOne(DigitChar(b));
    } else if b < 100 {
      DecValTwo(DigitChar(b / 10), DigitChar(b % 10));
    } else {
      DecValThree(DigitChar(b / 100), DigitChar((b / 10) % 10), DigitChar(b % 10));
    }
  }

  /** The octet wraps: "1.2.3.300" accumulates as "1.2.3.44". */
  lemma WrapExample(s: string)
    requires s == "1.2.3.300"
    ensures Accumulate(s) == Pack(1, 2, 3, 44)
  {
    var w, x, y, z := "1", "2", "3", "300";
    assert s == w + "." + x + "." + y + "." + z;
    DecValOne('1');
    DecValOne('2');
    DecValOne('3');
    DecValThree('3', '0', '0');
    AccumulateRuns(w, x, y, z, '.', '.', '.');
  }

  /** The parse is the accumulator in network byte order: htonl on the
      result gives the accumulator back. */
  lemma ParseInNetworkOrder(s: string)
    ensures Htonl(Parse(s)) == Accumulate(s)
  {
    HtonlInvolution(Accumulate(s));
  }

  /** An octet's text is one to three digits, without a leading zero. */
  lemma DecimalDigits(b: uint8)
    ensures 1 <= |Decimal(b)| <= 3
    ensures forall i :: 0 <= i < |Decimal(b)| ==> IsDigit(Decimal(b)[i])
    ensures |Decimal(b)| > 1 ==> Decimal(b)[0] != '0'
    ensures |Decimal(b)| == 1 <==> b < 10
  {
  }

  /** Text made only of digits and dots. */
  predicate DigitsAndDots(s: string) {
    forall i :: 0 <= i < |s| ==> IsDigit(s[i]) || s[i] == '.'
  }

  lemma JoinDigitsAndDots(s: string, t: string)
    requires DigitsAndDots(s) && DigitsAndDots(t)
    ensures DigitsAndDots(s + t)
  {
    forall i | 0 <= i < |s + t|
      ensures IsDigit((s + t)[i]) || (s + t)[i] == '.'
    {
      if i >= |s| {
        assert (s + t)[i] == t[i - |s|];
      }
    }
  }

  /** One to three digits. */
  predicate OctetText(s: string) {
    1 <= |s| <= 3 && AllDigits(s)
  }

  /** Four octet texts joined by dots: seven to fifteen characters, each
      a digit or a dot, with exactly three dots. */
  lemma JoinOctets(w: string, x: string, y: string, z: string)
    requires OctetText(w) && OctetText(x) && OctetText(y) && OctetText(z)
    ensures var s := w + "." + x + "." + y + "." + z;
      7 <= |s| <= 15 && DigitsAndDots(s) && multiset(s)['.'] == 3
  {
    assert '.' !in w && '.' !in x && '.' !in y && '.' !in z;
    JoinDigitsAndDots(w, ".");
    JoinDigitsAndDots(w + ".", x);
    JoinDigitsAndDots(w + "." + x, ".");
    JoinDigitsAndDots(w + "." + x + ".", y);
    JoinDigitsAndDots(w + "." + x + "." + y, ".");
    JoinDigitsAndDots(w + "." + x + "." + y + ".", z);
  }

  /** A dotted quad has that shape. */
  lemma DottedShape(a: uint8, b: uint8, c: uint8, d: uint8)
    ensures 7 <= |Dotted(a, b, c, d)| <= 15
    ensures DigitsAndDots(Dotted(a, b, c, d))
    ensures multiset(Dotted(a, b, c, d))['.'] == 3
  {
    DecimalDigits(a);
    DecimalDigits(b);
    DecimalDigits(c);
    DecimalDigits(d);
    JoinOctets(Decimal(a), Decimal(b), Decimal(c), Decimal(d));
  }

  /** inet_ntop's text for an IPv4 address has the shape of a dotted quad. */
  lemma FormatShape(v: uint32)
    ensures 7 <= |Format(v)| <= 15
    ensures DigitsAndDots(Format(v))
    ensures multiset(Format(v))['.'] == 3
  {
    DottedShape(Byte0(v), Byte1(v), Byte2(v), Byte3(v));
  }

  /** Encoding then decoding an address gives it back. */
  lemma FormatThenParse(v: uint32)
    ensures Parse(Format(v)) == v
  {
    AccumulateDotted(Byte0(v), Byte1(v), Byte2(v), Byte3(v));
    PackBytes(Byte0(v), Byte1(v), Byte2(v), Byte3(v));
    BytesPack(v);
  }

  /** The worked example: "192.168.1.1" accumulates to 0xC0A80101 and is
      written back as the same text. */
  lemma ParseExample()
    ensures Accumulate("192.168.1.1") == 0xC0A80101
    ensures Format(Parse("192.168.1.1")) == "192.168.1.1"
  {
    assert "192.168.1.1" == Dotted(192, 168, 1, 1);
    AccumulateDotted(192, 168, 1, 1);
    var v := Parse("192.168.1.1");
    HtonlSwapsBytes(Pack(192, 168, 1, 1));
    PackBytes(192, 168, 1, 1);
    assert Byte0(v) == 192 && Byte1(v) == 168 && Byte2(v) == 1 && Byte3(v) == 1;
  }
}

=== FILE: list_properties.dfy ===
/** Encode then decode for the list kinds: the elements come back in a
    buffer of the decoder's choosing, except for the prefix list, whose
    encoder never reads the list. */
module ListProperties {
  import opened Ints
  import opened AttrTypes
  import opened Codec
  import opened CodecProperties
  import IpCodec

  /** The same list moved to buffer `b`: what a decoder allocating `b`
      gives back for a list value. */
  function Rebuffer(v: NativeValue, b: BufferId): NativeValue {
    match v
    case ObjListVal(l) => ObjListVal(l.(buf := l.buf.(id := b)))
    case U8ListVal(l) => U8ListVal(l.(buf := l.buf.(id := b)))
    case S8ListVal(l) => S8ListVal(l.(buf := l.buf.(id := b)))
    case U16ListVal(l) => U16ListVal(l.(buf := l.buf.(id := b)))
    case S16ListVal(l) => S16ListVal(l.(buf := l.buf.(id := b)))
    case U32ListVal(l) => U32ListVal(l.(buf := l.buf.(id := b)))
    case S32ListVal(l) => S32ListVal(l.(buf := l.buf.(id := b)))
    case U16RangeListVal(l) => U16RangeListVal(l.(buf := l.buf.(id := b)))
    case AclCapabilityVal(m, l) => AclCapabilityVal(m, l.(buf := l.buf.(id := b)))
    case AclResourceListVal(l) => AclResourceListVal(l.(buf := l.buf.(id := b)))
    case IpAddrListVal(l) => IpAddrListVal(l.(buf := l.buf.(id := b)))
    case IpPrefixListVal(l) => IpPrefixListVal(l.(buf := l.buf.(id := b)))
    case QosMapListVal(l) => QosMapListVal(l.(buf := l.buf.(id := b)))
    case _ => v
  }

  /** One list copied onto an empty wire list and placed back in buffer
      `b`: the counts agree and the list comes back in `b`. */
  lemma PlaceAppended<T>(into: WireList<T>, l: NativeList<T>, b: BufferId)
    requires into.items == [] && |l.buf.elems| == l.count
    ensures Agrees(AppendList(into, l))
    ensures Placed(AppendList(into, l), b) == l.(buf := l.buf.(id := b))
  {
    assert into.items + l.buf.elems == l.buf.elems;
  }

  /** An integer list encoded into a blank output and decoded into buffer
      `b` has the same count and the same elements in the same order, and
      the encoded counts agree with the items. */
  lemma IntListNativeRoundTrip(k: ValueType, v: NativeValue, into: WireValue, b: BufferId)
    requires IsIntList(k) && Carries(k, v) && Sized(v) && Blank(k, into)
    ensures
      var w := EncodeIntList(k, v, into);
      && CountsAgree(k, w)
      && DecodeIntList(k, w, b) == Rebuffer(v, b)
  {
    match k
    case ObjectList => PlaceAppended(into.objlist, v.objlist, b);
    case UInt8List => PlaceAppended(into.u8list, v.u8list, b);
    case Int8List => PlaceAppended(into.s8list, v.s8list, b);
    case UInt16List => PlaceAppended(into.u16list, v.u16list, b);
    case Int16List => PlaceAppended(into.s16list, v.s16list, b);
    case UInt32List => PlaceAppended(into.u32list, v.u32list, b);
    case Int32List => PlaceAppended(into.s32list, v.s32list, b);
  }

  /** The same for the range, resource, QoS-map and capability lists; the
      capability's flag comes back only because the blank output's flag
      is clear and so is the value's. */
  lemma RecordListNativeRoundTrip(env: Env, k: ValueType, v: NativeValue, into: WireValue, b: BufferId)
    requires k.UInt16RangeList? || k.AclResourceList? || k.QosMapList? || k.AclCapability?
    requires Holds(k, v) && Sized(v) && Blank(k, into)
    requires k.AclCapability? ==> !v.isActionListMandatory
    ensures
      var w := EncodeRecordList(env, k, v, into);
      && CountsAgree(k, w)
      && DecodeRecordList(env, k, w, b) == Rebuffer(v, b)
  {
    match k
    case UInt16RangeList => PlaceAppended(into.u16rangelist, v.u16rangelist, b);
    case AclResourceList => PlaceAppended(into.aclresource, v.aclresource, b);
    case QosMapList => PlaceAppended(into.qosmap, v.qosmap, b);
    case AclCapability => PlaceAppended(into.aclcapability.actionList, v.actionList, b);
  }

  /** Every address of a list in a family the encoder writes comes back:
      the per-element wire address starts default-constructed, and the
      decoder parses each one by its family. */
  lemma {:induction false} AddressListNativeRoundTrip(env: Env, v: NativeValue, into: WireValue, b: BufferId)
    requires Holds(IpAddressList, v) && Sized(v) && Blank(IpAddressList, into)
    requires forall i :: 0 <= i < |v.ipaddrlist.buf.elems| ==> IpCodec.FamilyExact(env.libc, v.ipaddrlist.buf.elems[i].family)
    ensures
      var w := EncodeRecordList(env, IpAddressList, v, into);
      && CountsAgree(IpAddressList, w)
      && DecodeRecordList(env, IpAddressList, w, b) == Rebuffer(v, b)
  {
    var s := v.ipaddrlist.buf.elems;
    var t := AddressesToWire(env.libc, s);
    var w := EncodeRecordList(env, IpAddressList, v, into);
    assert w.ipaddrlist.items == t;
    assert ParseAddresses(env.libc, t) == s;
  }

  // ------------------------------------------------------- prefix list

  /** The prefix-list encoder reads the count and the buffer's address,
      never the prefixes: two lists that agree on those encode alike. */
  lemma PrefixListIgnoresElements(env: Env, v: NativeValue, v': NativeValue, into: WireValue)
    requires Holds(IpPrefixList, v) && Sized(v) && Holds(IpPrefixList, v') && Sized(v')
    requires v.ipprefixlist.count == v'.ipprefixlist.count
    requires v.ipprefixlist.buf.id == v'.ipprefixlist.buf.id
    ensures EncodeRecordList(env, IpPrefixList, v, into) == EncodeRecordList(env, IpPrefixList, v', into)
  {
  }

  /** From two prefixes on, the misread family is neither IPv4 nor IPv6, so
      every element the encoder appends is the default-constructed wire
      prefix; the count is the native count. */
  lemma PrefixListDefaults(env: Env, v: NativeValue, into: WireValue)
    requires Holds(IpPrefixList, v) && Sized(v) && v.ipprefixlist.count >= 2
    ensures
      var w := EncodeRecordList(env, IpPrefixList, v, into).ipprefixlist;
      && w.count == v.ipprefixlist.count
      && w.items == into.ipprefixlist.items + seq(v.ipprefixlist.count, _ => IpCodec.DEFAULT_PREFIX)
  {
    var l := v.ipprefixlist;
    var p := MisreadPrefix(env, l);
    assert p.family != IpCodec.IPV4 && p.family != IpCodec.IPV6;
    assert MisreadPrefixes(env, l) == seq(l.count, _ => IpCodec.DEFAULT_PREFIX);
  }

  /** Two IPv4 prefixes do not survive encode then decode: each comes back
      with address and mask both parsed from the same empty text, so a
      prefix whose address and mask differ is lost. */
  lemma PrefixListNoRoundTrip(env: Env, into: WireValue, b: BufferId)
    requires Blank(IpPrefixList, into)
    ensures
      var p := IpCodec.IpPrefix(IpCodec.IPV4, IpCodec.V4(1), IpCodec.V4(0xFFFF_FFFF));
      var v := IpPrefixListVal(NativeList(2, Buffer(b, [p, p])));
      && Holds(IpPrefixList, v) && Sized(v)
      && DecodeRecordList(env, IpPrefixList, EncodeRecordList(env, IpPrefixList, v, into), b) != v
  {
    var p := IpCodec.IpPrefix(IpCodec.IPV4, IpCodec.V4(1), IpCodec.V4(0xFFFF_FFFF));
    var v := IpPrefixListVal(NativeList(2, Buffer(b, [p, p])));
    PrefixListDefaults(env, v, into);
    var w := EncodeRecordList(env, IpPrefixList, v, into);
    assert w.ipprefixlist.items[0] == IpCodec.DEFAULT_PREFIX;
    var e := DecodeRecordList(env, IpPrefixList, w, b).ipprefixlist.buf.elems[0];
    assert e == IpCodec.ParsePrefix(env.libc, IpCodec.DEFAULT_PREFIX);
    assert e.addr == e.mask;
  }
}

=== FILE: mac_codec.dfy ===
/** The MAC address codec: the lenient hex-digit scanner used on decode and
    the `%02x:` formatter used on encode. */
module MacCodec {
  import opened Ints

  /** The six raw bytes of a sai_mac_t. */
  type Mac = s: seq<uint8> | |s| == 6 witness [0, 0, 0, 0, 0, 0]

  const ZERO_MAC: Mac := [0, 0, 0, 0, 0, 0]

  predicate IsHex(c: char) {
    '0' <= c <= '9' || 'a' <= c <= 'f' || 'A' <= c <= 'F'
  }

  predicate IsLowerHex(c: char) {
    '0' <= c <= '9' || 'a' <= c <= 'f'
  }

  function HexValue(c: char): (d: nat)
    requires IsHex(c)
    ensures d < 16
  {
    if '0' <= c <= '9' then c as int - '0' as int
    else if 'a' <= c <= 'f' then c as int - 'a' as int + 10
    else c as int - 'A' as int + 10
  }

  ghost predicate Nibbles(ds: seq<nat>) {
    forall i :: 0 <= i < |ds| ==> ds[i] < 16
  }

  /** The values of the hex digits of s, in order; every other character is dropped. */
  function HexDigits(s: string): (ds: seq<nat>)
    ensures Nibbles(ds)
  {
    if |s| == 0 then []
    else (if IsHex(s[0]) then [HexValue(s[0])] else []) + HexDigits(s[1..])
  }

  lemma {:induction false} HexDigitsAppend(s: string, t: string)
    ensures HexDigits(s + t) == HexDigits(s) + HexDigits(t)
    decreases |s|
  {
    if |s| == 0 {
      assert s + t == t;
    } else {
      var head := if IsHex(s[0]) then [HexValue(s[0])] else [];
      assert (s + t)[0] == s[0];
      assert (s + t)[1..] == s[1..] + t;
      HexDigitsAppend(s[1..], t);
      assert HexDigits(s + t) == head + (HexDigits(s[1..]) + HexDigits(t));
      assert HexDigits(s) == head + HexDigits(s[1..]);
    }
  }

  /** Byte k of the buffer after the digits ds were packed: digit 2k is the
      high nibble and digit 2k+1 the low nibble; a byte that received one
      digit holds it, one that received none stays zero. */
  function ByteOf(ds: seq<nat>, k: nat): uint8
    requires Nibbles(ds)
  {
    if 2 * k + 1 < |ds| then ds[2 * k] * 16 + ds[2 * k + 1]
    else if 2 * k < |ds| then ds[2 * k]
    else 0
  }

  /** The reference meaning of a digit sequence: the six bytes it packs into. */
  function Packed(ds: seq<nat>): Mac
    requires Nibbles(ds)
  {
    [ByteOf(ds, 0), ByteOf(ds, 1), ByteOf(ds, 2), ByteOf(ds, 3), ByteOf(ds, 4), ByteOf(ds, 5)]
  }

  /** Scanner state: the digit counter j and the output buffer m. */
  datatype Scan = Scan(j: nat, m: Mac)

  /** One iteration of the scanning loop. A digit past the twelfth would be
      written beyond the six-byte buffer; the model keeps only the counter. */
  function Step(st: Scan, c: char): Scan {
    if !IsHex(c) then st
    else if st.j / 2 < 6 then
      Scan(st.j + 1, st.m[st.j / 2 := (st.m[st.j / 2] * 16 + HexValue(c)) % 0x100])
    else Scan(st.j + 1, st.m)
  }

  function ScanFrom(st: Scan, s: string): Scan
    decreases |s|
  {
    if |s| == 0 then st else ScanFrom(Step(st, s[0]), s[1..])
  }

  /** Appending digit d changes only the byte it lands in, which shifts up
      a nibble to take it. */
  lemma ByteAppend(ds: seq<nat>, d: nat, k: nat)
    requires Nibbles(ds) && d < 16
    ensures Nibbles(ds + [d])
    ensures ByteOf(ds + [d], k) == if k == |ds| / 2 then (ByteOf(ds, k) * 16 + d) % 0x100 else ByteOf(ds, k)
  {
    var ds' := ds + [d];
    assert forall i :: 0 <= i < |ds| ==> ds'[i] == ds[i];
  }

  lemma StepPacks(st: Scan, ds: seq<nat>, c: char)
    requires Nibbles(ds) && st.j == |ds| && st.m == Packed(ds)
    ensures IsHex(c) ==> Nibbles(ds + [HexValue(c)])
    ensures IsHex(c) ==> Step(st, c) == Scan(|ds| + 1, Packed(ds + [HexValue(c)]))
    ensures !IsHex(c) ==> Step(st, c) == st
  {
    if IsHex(c) {
      var d := HexValue(c);
      ByteAppend(ds, d, 0);
      forall k | 0 <= k < 6
        ensures Step(st, c).m[k] == ByteOf(ds + [d], k)
      {
        ByteAppend(ds, d, k);
      }
    }
  }

  lemma {:induction false} ScanPacks(st: Scan, ds: seq<nat>, s: string)
    requires Nibbles(ds) && st.j == |ds| && st.m == Packed(ds)
    ensures ScanFrom(st, s) == Scan(|ds + HexDigits(s)|, Packed(ds + HexDigits(s)))
    decreases |s|
  {
    if |s| == 0 {
      assert ds + HexDigits(s) == ds;
    } else {
      var head := if IsHex(s[0]) then [HexValue(s[0])] else [];
      var ds' := ds + head;
      assert HexDigits(s) == head + HexDigits(s[1..]);
      assert ds' + HexDigits(s[1..]) == ds + HexDigits(s) by {
        assert ds + (head + HexDigits(s[1..])) == (ds + head) + HexDigits(s[1..]);
      }
      StepPacks(st, ds, s[0]);
      assert Nibbles(ds') && Step(st, s[0]) == Scan(|ds'|, Packed(ds')) by {
        if !IsHex(s[0]) {
          assert ds' == ds;
        }
      }
      ScanPacks(Step(st, s[0]), ds', s[1..]);
    }
  }

  /** The outcome of sai_thrift_mac_t_parse: its return value and the buffer. */
  datatype Parsed = Parsed(valid: bool, mac: Mac)

  /** Decode: scan s into a zeroed buffer; valid exactly when twelve hex
      digits were seen. Only the hex digits matter, in order. */
  function Parse(s: string): (r: Parsed)
    ensures r.valid <==> |HexDigits(s)| == 12
    ensures r.mac == Packed(HexDigits(s))
  {
    ScanPacks(Scan(0, ZERO_MAC), [], s);
    assert [] + HexDigits(s) == HexDigits(s);
    var st := ScanFrom(Scan(0, ZERO_MAC), s);
    Parsed(st.j == 12, st.m)
  }

  function HexChar(d: nat): (c: char)
    requires d < 16
    ensures IsLowerHex(c) && HexValue(c) == d
  {
    if d < 10 then ('0' as int + d) as char else ('a' as int + d - 10) as char
  }

  /** `%02x`: two lowercase, zero-padded hex digits. */
  function Hex2(b: uint8): string {
    [HexChar(b / 16), HexChar(b % 16)]
  }

  /** `:%02x` for each byte of bs. */
  function ColonHex(bs: seq<uint8>): (s: string)
    ensures |s| == 3 * |bs|
    ensures forall i :: 0 <= i < |s| ==> (s[i] == ':' <==> i % 3 == 0)
    ensures forall i :: 0 <= i < |s| && i % 3 != 0 ==> IsLowerHex(s[i])
  {
    if |bs| == 0 then "" else ":" + Hex2(bs[0]) + ColonHex(bs[1..])
  }

  /** Encode: `%02x:%02x:%02x:%02x:%02x:%02x` over the six bytes. */
  function Format(m: Mac): (s: string)
    ensures |s| == 17
    ensures forall i :: 0 <= i < 17 ==> (s[i] == ':' <==> i % 3 == 2)
    ensures forall i :: 0 <= i < 17 && i % 3 != 2 ==> IsLowerHex(s[i])
  {
    var s := Hex2(m[0]) + ColonHex(m[1..]);
    assert forall i :: 2 <= i < 17 ==> s[i] == ColonHex(m[1..])[i - 2];
    s
  }

  /** The digit values Format writes for bs, high nibble first. */
  function NibblesOf(bs: seq<uint8>): (ds: seq<nat>)
    ensures |ds| == 2 * |bs| && Nibbles(ds)
    ensures forall k :: 0 <= k < |bs| ==> ds[2 * k] == bs[k] / 16 && ds[2 * k + 1] == bs[k] % 16
  {
    if |bs| == 0 then []
    else
      var rest := NibblesOf(bs[1..]);
      var ds := [bs[0] / 16, bs[0] % 16] + rest;
      forall k | 1 <= k < |bs|
        ensures ds[2 * k] == rest[2 * k - 2] && ds[2 * k + 1] == rest[2 * k - 1]
      {
      }
      ds
  }

  lemma {:induction false} ColonHexDigits(bs: seq<uint8>)
    ensures HexDigits(ColonHex(bs)) == NibblesOf(bs)
    decreases |bs|
  {
    if |bs| > 0 {
      var h := Hex2(bs[0]);
      var rest := ColonHex(bs[1..]);
      assert ColonHex(bs) == ":" + (h + rest);
      HexDigitsAppend(":", h + rest);
      HexDigitsAppend(h, rest);
      assert HexDigits(":") == [];
      HexPairDigits(bs[0]);
      ColonHexDigits(bs[1..]);
      assert HexDigits(ColonHex(bs)) == [bs[0] / 16, bs[0] % 16] + NibblesOf(bs[1..]);
    }
  }

  lemma HexPairDigits(b: uint8)
    ensures HexDigits(Hex2(b)) == [b / 16, b % 16]
  {
    var h := Hex2(b);
    assert h[1..] == [h[1]];
    assert HexDigits(h[1..]) == [b % 16];
  }

  /** Parsing the encoder's text succeeds and returns the original bytes. */
  lemma FormatThenParse(m: Mac)
    ensures Parse(Format(m)) == Parsed(true, m)
  {
    var h := Hex2(m[0]);
    HexDigitsAppend(h, ColonHex(m[1..]));
    HexPairDigits(m[0]);
    ColonHexDigits(m[1..]);
    assert m == [m[0]] + m[1..];
    var ds := HexDigits(Format(m));
    assert ds == NibblesOf(m);
    forall k | 0 <= k < 6
      ensures ByteOf(ds, k) == m[k]
    {
    }
  }

  function LowerChar(c: char): char {
    if 'A' <= c <= 'Z' then (c as int - 'A' as int + 'a' as int) as char else c
  }

  /** Parsing ignores letter case: upper- and lower-case hex digits mean the same. */
  lemma {:induction false} ParseIgnoresCase(s: string)
    ensures Parse(seq(|s|, i requires 0 <= i < |s| => LowerChar(s[i]))) == Parse(s)
  {
    LowerKeepsDigits(s);
  }

  lemma {:induction false} LowerKeepsDigits(s: string)
    ensures HexDigits(seq(|s|, i requires 0 <= i < |s| => LowerChar(s[i]))) == HexDigits(s)
    decreases |s|
  {
    var t := seq(|s|, i requires 0 <= i < |s| => LowerChar(s[i]));
    if |s| > 0 {
      assert t[1..] == seq(|s[1..]|, i requires 0 <= i < |s[1..]| => LowerChar(s[1..][i]));
      LowerKeepsDigits(s[1..]);
    }
  }
}

=== FILE: nat_type.dfy ===
/** The NAT type conversion: a C cast from the Thrift enum to the SAI enum.
    Both enums are 32-bit on their side of the boundary, and the cast checks
    nothing, so every value goes through, including ones that name no NAT
    type. */
module NatType {
  /** sai_thrift_nat_type_t, a Thrift enum carried as a 32-bit integer. */
  newtype ThriftNatType = x: int | -0x8000_0000 <= x < 0x8000_0000

  /** sai_nat_type_t, a C enum whose underlying type is int. */
  newtype SaiNatType = x: int | -0x8000_0000 <= x < 0x8000_0000

  /** sai_thrift_nat_type_t_parse: the number is kept, whatever it is. */
  function NatTypeParse(t: ThriftNatType): (r: SaiNatType)
    ensures r as int == t as int
  {
    t as int as SaiNatType
  }

  /** The cast the other way, from the SAI enum back to the Thrift one. */
  function NatTypeToThrift(n: SaiNatType): (r: ThriftNatType)
    ensures r as int == n as int
  {
    n as int as ThriftNatType
  }

  /** The parse loses nothing: casting back gives the Thrift value, and
      every SAI value is the parse of exactly one Thrift value. */
  lemma NatTypeRoundTrip(t: ThriftNatType, n: SaiNatType)
    ensures NatTypeToThrift(NatTypeParse(t)) == t
    ensures NatTypeParse(NatTypeToThrift(n)) == n
    ensures NatTypeParse(t) == n <==> t == NatTypeToThrift(n)
  {
  }
}

=== FILE: properties.dfy ===
/** What the two dispatchers promise together: which member each touches,
    which wire values survive decode then encode, which native values
    survive encode then decode, and how the heap balances. */
module CodecProperties {
  import opened Ints
  import opened Wrappers
  import opened AttrTypes
  import opened Codec
  import MacCodec
  import Ipv4Codec
  import IpCodec
  import CharData

  // ------------------------------------------------------------- frames

  lemma EncodeScalarFrame(env: Env, k: ValueType, v: NativeValue, into: WireValue)
    requires !IsList(k) && EncodeHandles(k) && Holds(k, v)
    ensures var w := EncodeScalar(env, k, v, into); w == Member(k, into, w)
  {
  }

  lemma EncodeIntListFrame(k: ValueType, v: NativeValue, into: WireValue)
    requires IsIntList(k) && Carries(k, v) && Sized(v)
    ensures var w := EncodeIntList(k, v, into); w == Member(k, into, w)
  {
  }

  lemma EncodeRecordListFrame(env: Env, k: ValueType, v: NativeValue, into: WireValue)
    requires IsList(k) && !IsIntList(k) && Holds(k, v) && Sized(v)
    ensures var w := EncodeRecordList(env, k, v, into); w == Member(k, into, w)
  {
  }

  /** The encoder writes the member its kind selects and nothing else. */
  lemma EncodeWritesOnlyMember(env: Env, k: ValueType, v: NativeValue, into: WireValue, h: Heap)
    requires Encodable(k, v, h) && EncodeHandles(k)
    ensures var w := EncodeValue(env, k, v, into, h).value.0; w == Member(k, into, w)
  {
    if IsIntList(k) {
      EncodeIntListFrame(k, v, into);
    } else if IsList(k) {
      EncodeRecordListFrame(env, k, v, into);
    } else {
      EncodeScalarFrame(env, k, v, into);
    }
  }

  lemma DecodeScalarFrame(env: Env, k: ValueType, w: WireValue, other: WireValue)
    requires !IsList(k) && !IsAcl(k)
    ensures DecodeScalar(env, k, Member(k, other, w)) == DecodeScalar(env, k, w)
  {
  }

  lemma DecodeIntListFrame(k: ValueType, w: WireValue, other: WireValue, b: BufferId)
    requires IsIntList(k)
    ensures DecodeIntList(k, Member(k, other, w), b) == DecodeIntList(k, w, b)
  {
  }

  lemma DecodeRecordListFrame(env: Env, k: ValueType, w: WireValue, other: WireValue, b: BufferId)
    requires IsList(k) && !IsIntList(k)
    ensures DecodeRecordList(env, k, Member(k, other, w), b) == DecodeRecordList(env, k, w, b)
  {
    var m := Member(k, other, w);
    match k
    case UInt16RangeList => assert m.u16rangelist == w.u16rangelist;
    case AclCapability => assert m.aclcapability == w.aclcapability;
    case AclResourceList => assert m.aclresource == w.aclresource;
    case IpAddressList => assert m.ipaddrlist == w.ipaddrlist;
    case IpPrefixList => assert m.ipprefixlist == w.ipprefixlist;
    case QosMapList => assert m.qosmap == w.qosmap;
  }

  /** The decoder reads the member its kind selects and nothing else:
      replacing every other member changes nothing. */
  lemma DecodeReadsOnlyMember(env: Env, k: ValueType, w: WireValue, other: WireValue, h: Heap)
    ensures DecodeValue(env, k, Member(k, other, w), h) == DecodeValue(env, k, w, h)
  {
    var m := Member(k, other, w);
    if IsIntList(k) {
      DecodeIntListFrame(k, w, other, h.next);
    } else if IsList(k) {
      DecodeRecordListFrame(env, k, w, other, h.next);
    } else if k.AclFieldData? {
      assert m.aclfield == w.aclfield;
    } else if k.AclActionData? {
      assert m.aclaction == w.aclaction;
    } else {
      DecodeScalarFrame(env, k, w, other);
    }
  }

  // -------------------------------------------------- wire round trips

  /** The list kinds whose elements the decoder copies as they are. */
  predicate VerbatimList(k: ValueType) {
    IsIntList(k) || k.UInt16RangeList? || k.AclResourceList? || k.QosMapList?
  }

  /** The output's list member for `k` holds no items yet (the encoder
      appends to it), and a capability's flag is clear (the encoder never
      writes it). Every member of a freshly constructed output is blank. */
  predicate Blank(k: ValueType, into: WireValue) {
    match k
    case ObjectList => into.objlist.items == []
    case UInt8List => into.u8list.items == []
    case Int8List => into.s8list.items == []
    case UInt16List => into.u16list.items == []
    case Int16List => into.s16list.items == []
    case UInt32List => into.u32list.items == []
    case Int32List => into.s32list.items == []
    case UInt16RangeList => into.u16rangelist.items == []
    case AclCapability => into.aclcapability.actionList.items == [] && !into.aclcapability.isActionListMandatory
    case AclResourceList => into.aclresource.items == []
    case IpAddressList => into.ipaddrlist.items == []
    case IpPrefixList => into.ipprefixlist.items == []
    case QosMapList => into.qosmap.items == []
    case _ => true
  }

  /** The output the server hands to the encoder is freshly constructed,
      so every kind's member is blank. */
  lemma EmptyWireBlank(k: ValueType)
    ensures Blank(k, EMPTY_WIRE)
  {
  }

  /** The wire values decode then encode reproduces: a verbatim kind, a
      chardata text that is shorter than the array and free of NUL, or an
      ACL capability whose mandatory flag is clear (the encoder never writes
      the flag). */
  predicate WireExact(k: ValueType, w: WireValue) {
    || VerbatimScalar(k)
    || (VerbatimList(k) && CountsAgree(k, w))
    || (k.CharData? && |w.chardata| < 32 && CharData.NUL !in w.chardata)
    || (k.AclCapability? && Agrees(w.aclcapability.actionList) && !w.aclcapability.isActionListMandatory)
  }

  lemma ScalarWireRoundTrip(env: Env, k: ValueType, w: WireValue, into: WireValue)
    requires VerbatimScalar(k) || k.CharData?
    requires k.CharData? ==> |w.chardata| < 32 && CharData.NUL !in w.chardata
    ensures
      var r := DecodeScalar(env, k, w);
      && r.Success?
      && Holds(k, r.value)
      && EncodeScalar(env, k, r.value, into) == Member(k, into, w)
  {
    if k.CharData? {
      CharData.ShortTextRoundTrip(w.chardata);
    }
  }

  lemma IntListWireRoundTrip(k: ValueType, w: WireValue, into: WireValue, b: BufferId)
    requires IsIntList(k) && CountsAgree(k, w) && Blank(k, into)
    ensures
      var v := DecodeIntList(k, w, b);
      && Carries(k, v)
      && Sized(v)
      && EncodeIntList(k, v, into) == Member(k, into, w)
  {
    DecodeIntListFits(k, w, b);
  }

  lemma RecordListWireRoundTrip(env: Env, k: ValueType, w: WireValue, into: WireValue, b: BufferId)
    requires k.UInt16RangeList? || k.AclResourceList? || k.QosMapList? || k.AclCapability?
    requires CountsAgree(k, w) && Blank(k, into)
    requires k.AclCapability? ==> !w.aclcapability.isActionListMandatory
    ensures
      var v := DecodeRecordList(env, k, w, b);
      && Holds(k, v)
      && Sized(v)
      && EncodeRecordList(env, k, v, into) == Member(k, into, w)
  {
    DecodeRecordListFits(env, k, w, b);
  }

  /** Decode then encode into a freshly constructed wire attribute gives
      back the id and the kind's member, for every wire value WireExact
      admits; the heap ends with the live buffers it started with. */
  lemma WireRoundTrip(env: Env, ot: ObjectType, w: WireAttr, n: NativeAttr, into: WireAttr, h: Heap)
    requires (ot, w.id) in env.metadata && WireExact(env.metadata[(ot, w.id)], w.value)
    requires Blank(env.metadata[(ot, w.id)], into.value) && h.Valid()
    ensures Decode(env, ot, w, n, h).outcome == Returned
    ensures EncodeReady(env, ot, Decode(env, ot, w, n, h).attr, Decode(env, ot, w, n, h).heap)
    ensures
      var d := Decode(env, ot, w, n, h);
      var e := Encode(env, ot, d.attr, into, d.heap);
      && e.outcome == Returned
      && e.attr == WireAttr(w.id, Member(env.metadata[(ot, w.id)], into.value, w.value))
      && e.heap.live == h.live
  {
    var k := env.metadata[(ot, w.id)];
    DecodeEncodeBalance(env, ot, w, n, into, h);
    var d := Decode(env, ot, w, n, h);
    if IsIntList(k) {
      assert d.attr.value == DecodeIntList(k, w.value, h.next);
      IntListWireRoundTrip(k, w.value, into.value, h.next);
    } else if IsList(k) {
      assert d.attr.value == DecodeRecordList(env, k, w.value, h.next);
      RecordListWireRoundTrip(env, k, w.value, into.value, h.next);
    } else {
      assert d.attr.value == DecodeScalar(env, k, w.value).value;
      ScalarWireRoundTrip(env, k, w.value, into.value);
    }
  }

  /** The capability's mandatory flag never reaches the wire: the encoder
      leaves whatever the output held. */
  lemma CapabilityFlagNotWritten(env: Env, v: NativeValue, into: WireValue)
    requires Holds(AclCapability, v) && Sized(v)
    ensures EncodeRecordList(env, AclCapability, v, into).aclcapability.isActionListMandatory
         == into.aclcapability.isActionListMandatory
  {
  }

  // ------------------------------------------------ native round trips

  /** The native values encode then decode reproduces: chardata padded with
      NUL after its text, an IPv6 address when inet_pton inverts inet_ntop,
      an address or prefix of a family the encoder writes. */
  ghost predicate NativeExact(env: Env, k: ValueType, v: NativeValue) {
    match k
    case CharData => v.CharVal? && CharData.Padded(v.chardata)
    case Ipv6 => IpCodec.Ip6TextInverts(env.libc)
    case IpAddress => v.IpAddrVal? && IpCodec.FamilyExact(env.libc, v.ipaddr.family)
    case IpPrefix => v.IpPrefixVal? && IpCodec.FamilyExact(env.libc, v.ipprefix.family)
    case _ => true
  }

  /** Encode then decode gives back every scalar value NativeExact admits. */
  lemma ScalarNativeRoundTrip(env: Env, k: ValueType, v: NativeValue, into: WireValue)
    requires !IsList(k) && EncodeHandles(k) && Holds(k, v) && NativeExact(env, k, v)
    ensures DecodeScalar(env, k, EncodeScalar(env, k, v, into)) == Success(v)
  {
    match k
    case CharData => CharData.PaddedRoundTrip(v.chardata);
    case Mac => MacCodec.FormatThenParse(v.mac);
    case Ipv4 => Ipv4Codec.FormatThenParse(v.ip4);
    case IpAddress => IpCodec.AddressRoundTrip(env.libc, into.ipaddr, v.ipaddr);
    case IpPrefix => IpCodec.PrefixRoundTrip(env.libc, into.ipprefix, v.ipprefix);
    case _ =>
  }

  /** Encode then decode of a scalar attribute gives back the attribute,
      whatever the output and the heap held before. */
  lemma NativeRoundTrip(env: Env, ot: ObjectType, n: NativeAttr, into: WireAttr, other: NativeAttr, h: Heap)
    requires (ot, n.id) in env.metadata
    requires var k := env.metadata[(ot, n.id)];
      !IsList(k) && EncodeHandles(k) && Holds(k, n.value) && NativeExact(env, k, n.value)
    ensures EncodeReady(env, ot, n, h)
    ensures Encode(env, ot, n, into, h).outcome == Returned
    ensures Encode(env, ot, n, into, h).heap.live == h.live
    ensures DecodeReady(env, ot, Encode(env, ot, n, into, h).attr)
    ensures
      var e := Encode(env, ot, n, into, h);
      Decode(env, ot, e.attr, other, e.heap) == Converted(n, e.heap, Returned)
  {
    var k := env.metadata[(ot, n.id)];
    OwnedByKind(k, n.value);
    ScalarNativeRoundTrip(env, k, n.value, into.value);
  }

  // ----------------------------------------------------------- the heap

  /** A value the encoder can read owns one buffer for a list kind and
      none otherwise. */
  lemma OwnedByKind(k: ValueType, v: NativeValue)
    requires EncodeHandles(k) && Holds(k, v)
    ensures |Owned(v)| == if IsList(k) then 1 else 0
  {
  }

  /** Decoding allocates exactly Allocations(k) new buffers (one per list,
      two for an ACL u8-list field, none for a scalar) and keeps the heap
      valid; a throw allocates nothing. */
  lemma DecodeAllocates(env: Env, ot: ObjectType, w: WireAttr, n: NativeAttr, h: Heap)
    requires h.Valid()
    ensures var d := Decode(env, ot, w, n, h);
      && d.heap.Valid()
      && (d.outcome == Returned ==>
            |d.heap.live| == |h.live| + Allocations(env.metadata[(ot, w.id)]))
      && (d.outcome.Thrown? ==> d.heap == h)
  {
    if (ot, w.id) in env.metadata {
      GrowCount(h, Allocations(env.metadata[(ot, w.id)]));
    }
  }

  /** Encoding frees exactly the buffer a list owns, and nothing for any
      other kind; a throw frees nothing. */
  lemma EncodeFrees(env: Env, ot: ObjectType, n: NativeAttr, into: WireAttr, h: Heap)
    requires EncodeReady(env, ot, n, h)
    ensures var e := Encode(env, ot, n, into, h);
      && (e.outcome == Returned ==>
            |e.heap.live| == |h.live| - if IsList(env.metadata[(ot, n.id)]) then 1 else 0)
      && (e.outcome.Thrown? ==> e.heap == h)
  {
    var e := Encode(env, ot, n, into, h);
    if e.outcome == Returned {
      var k := env.metadata[(ot, n.id)];
      OwnedByKind(k, n.value);
      assert h.live * Owned(n.value) == Owned(n.value);
    }
  }

  /** For a kind both switches handle, decode then encode leaves the live
      buffers as they were. */
  lemma DecodeEncodeBalance(env: Env, ot: ObjectType, w: WireAttr, n: NativeAttr, into: WireAttr, h: Heap)
    requires (ot, w.id) in env.metadata
    requires var k := env.metadata[(ot, w.id)]; EncodeHandles(k) && CountsAgree(k, w.value)
    requires h.Valid()
    ensures Decode(env, ot, w, n, h).outcome == Returned
    ensures EncodeReady(env, ot, Decode(env, ot, w, n, h).attr, Decode(env, ot, w, n, h).heap)
    ensures
      var d := Decode(env, ot, w, n, h);
      var e := Encode(env, ot, d.attr, into, d.heap);
      && e.outcome == Returned
      && e.heap.live == h.live
  {
    DecodeFits(env, ot, w, n, h);
    GrowThenRelease(h, Allocations(env.metadata[(ot, w.id)]));
  }

  /** Every ACL field and action kind the decoder handles decodes, then
      fails to encode with NOT_SUPPORTED, leaving the buffers the decoder
      allocated live. */
  lemma AclAsymmetry(env: Env, ot: ObjectType, w: WireAttr, n: NativeAttr, into: WireAttr, h: Heap)
    requires (ot, w.id) in env.metadata
    requires var k := env.metadata[(ot, w.id)]; IsAcl(k) && DecodeHandles(k) && CountsAgree(k, w.value)
    ensures Decode(env, ot, w, n, h).outcome == Returned
    ensures EncodeReady(env, ot, Decode(env, ot, w, n, h).attr, Decode(env, ot, w, n, h).heap)
    ensures
      var k := env.metadata[(ot, w.id)];
      var d := Decode(env, ot, w, n, h);
      var e := Encode(env, ot, d.attr, into, d.heap);
      && e.outcome == Thrown(NotSupported)
      && e.attr == into.(id := w.id)
      && Fresh(h.next, Allocations(k)) <= e.heap.live
  {
    DecodeFits(env, ot, w, n, h);
  }

  // ------------------------------------------------------------ ACL members

  /** The top-level wire value `w` holds the members of the ACL data record `d`. */
  predicate HoldsMembers(w: WireValue, d: WireAclData) {
    && w.booldata == d.booldata && w.u8 == d.u8 && w.s8 == d.s8 && w.u16 == d.u16
    && w.s16 == d.s16 && w.u32 == d.u32 && w.s32 == d.s32 && w.mac == d.mac
    && w.ip4 == d.ip4 && w.ip6 == d.ip6 && w.ipaddr == d.ipaddr && w.oid == d.oid
    && w.objlist == d.objlist && w.u8list == d.u8list
  }

  /** A freshly constructed wire value carrying the members of `d`. */
  function AclWire(d: WireAclData): (w: WireValue)
    ensures HoldsMembers(w, d)
  {
    EMPTY_WIRE.(booldata := d.booldata, u8 := d.u8, s8 := d.s8, u16 := d.u16, s16 := d.s16,
      u32 := d.u32, s32 := d.s32, mac := d.mac, ip4 := d.ip4, ip6 := d.ip6, ipaddr := d.ipaddr,
      oid := d.oid, objlist := d.objlist, u8list := d.u8list)
  }

  /** What the decoder's branch for the primitive's own kind makes of `w`,
      a list going into buffer `b`. */
  function AsValue(env: Env, p: AclPrim, w: WireValue, b: BufferId): NativeValue {
    var k := PrimKind(p);
    if ListPrim(p) then DecodeIntList(k, w, b) else DecodeScalar(env, k, w).value
  }

  /** The primitives whose member is text the decoder parses. */
  predicate TextPrim(p: AclPrim) {
    p.PMac? || p.PIpv4? || p.PIpv6? || p.PIpAddress?
  }

  /** An ACL data, mask or parameter member decodes exactly as a value of
      the primitive's own kind outside an ACL record, read from any wire
      value carrying the same members. */
  lemma AclDataAsValue(env: Env, p: AclPrim, d: WireAclData, w: WireValue, b: BufferId)
    requires HoldsMembers(w, d)
    ensures DecodeAclData(env, p, d, b) == AsValue(env, p, w, b)
  {
    if ListPrim(p) {
      AclListAsValue(env, p, d, w, b);
    } else if TextPrim(p) {
      AclTextAsValue(env, p, d, w, b);
    } else {
      AclNumberAsValue(env, p, d, w, b);
    }
  }

  lemma AclListAsValue(env: Env, p: AclPrim, d: WireAclData, w: WireValue, b: BufferId)
    requires HoldsMembers(w, d) && ListPrim(p)
    ensures DecodeAclData(env, p, d, b) == AsValue(env, p, w, b)
  {
  }

  lemma AclTextAsValue(env: Env, p: AclPrim, d: WireAclData, w: WireValue, b: BufferId)
    requires HoldsMembers(w, d) && TextPrim(p)
    ensures DecodeAclData(env, p, d, b) == AsValue(env, p, w, b)
  {
  }

  lemma AclNumberAsValue(env: Env, p: AclPrim, d: WireAclData, w: WireValue, b: BufferId)
    requires HoldsMembers(w, d) && !ListPrim(p) && !TextPrim(p)
    ensures DecodeAclData(env, p, d, b) == AsValue(env, p, w, b)
  {
  }

  /** An ACL field keeps the wire enable flag, decodes its data member as a
      value of the primitive's kind and, for the primitives with a mask,
      its mask member the same way from the next buffer on: for a u8 list
      the data's elements go into the first buffer and the mask's into the
      second. */
  lemma DecodeAclFieldMembers(env: Env, p: AclPrim, f: WireAclField, b: BufferId)
    requires p != PIpAddress
    ensures var v := DecodeAclField(env, p, f, b).aclfield;
      && v.enable == f.enable
      && v.data == AsValue(env, p, AclWire(f.data), b)
      && v.mask == (if HasMask(p) then Some(AsValue(env, p, AclWire(f.mask), b + 1)) else None)
    ensures p == PUInt8List ==>
      var v := DecodeAclField(env, p, f, b).aclfield;
      && v.data == U8ListVal(Placed(f.data.u8list, b))
      && v.mask == Some(U8ListVal(Placed(f.mask.u8list, b + 1)))
  {
    AclDataAsValue(env, p, f.data, AclWire(f.data), b);
    AclDataAsValue(env, p, f.mask, AclWire(f.mask), b + 1);
  }

  /** An ACL action keeps the wire enable flag and decodes its parameter
      member as a value of the primitive's kind: for an object list the
      wire parameter's ids go into the buffer allocated first. */
  lemma DecodeAclActionMembers(env: Env, p: AclPrim, a: WireAclAction, b: BufferId)
    requires p != PUInt8List
    ensures var v := DecodeAclAction(env, p, a, b).aclaction;
      v.enable == a.enable && v.parameter == AsValue(env, p, AclWire(a.parameter), b)
    ensures p == PObjectList ==>
      DecodeAclAction(env, p, a, b).aclaction.parameter == ObjListVal(Placed(a.parameter.objlist, b))
  {
    AclDataAsValue(env, p, a.parameter, AclWire(a.parameter), b);
  }
}

=== FILE: wrappers.dfy ===
/** The optional and result values shared by the codec modules. */
module Wrappers {

  /** An optional value: the metadata lookup's "no entry" and a field the
      decoder leaves untouched are both `None`. */
  datatype Option<+T> = None | Some(value: T)

  /** A computation that either produced a value or raised an error. */
  datatype Result<+T, +E> = Success(value: T) | Failure(error: E)
}
